=== FILE: README.md ===
# TON Ledger app: transaction ingestion, modelled in Dafny

This project models the path a TON transaction takes into the Ledger app. There are four layers:

- **`Reader`** is the cursor buffer `buffer_t` (src/common/buffer.c, buffer.h). It holds a byte string and a read offset. It provides:
  - bounds-checked seeks (`SeekSet`, `SeekCur`, `SeekEnd`);
  - fixed-width big- and little-endian reads;
  - a strict boolean read;
  - copying and zero-copy reads;
  - the length-prefixed `varuint`;
  - the 33-byte address and 34-byte cell-reference composites.

  Every read returns the buffer it leaves behind, also when it fails. So the composite reads that consume part of their input before failing (`varuint`, address, cell reference) show exactly what they consumed.
- **`Bits`** is the bit writer `BitString_t` (src/common/bits.c). It stores bits most significant first into a fixed byte array. Its encoders are bit, uint, coins, buffer, address, null address and `finalize`.
  - The byte array is the state.
  - `Image` reads the array back as a bit sequence.
  - Each store is specified by `Wrote`: the cursor advances past the stored run, the run holds the value's bits, and every other bit of the array keeps its value.
- **`Tx`, `Deserializer`, `WireFormat`** cover `transaction_deserialize` (src/transaction/deserialize.c).
  - `Tx` holds the parsed record, the `parser_status_e` codes and the size limits.
  - `Deserializer` is the parser: a strict pipeline of field reads. Each failing read stops the parse with the code the source assigns to that field.
  - `WireFormat` writes the wire layout as an encoder and proves the parser is its inverse, in both directions. An input longer than `MAX_TX_LEN` fails with the length error before any byte is read; for an input within `MAX_TX_LEN`:
    - an encoded well-formed transaction no longer than `MAX_TX_LEN` parses back to itself, provided the hints processor accepts it;
    - if the processor rejects it, the parse fails with the hints error;
    - a truncated encoding (within `MAX_TX_LEN`) fails with the code of the field the input ends in;
    - when the processor accepts, an encoding with trailing bytes fails with the length error;
    - conversely, a parse that succeeds has read nothing but the encoding of the record it returns.
- **`SignTx`** is `handler_sign_tx` (src/handler/sign_tx.c), written as a pure step function over the signing context.
  - The first packet wipes the context, reads the BIP32 path and opens a session.
  - Each continuation packet is appended to a bounded accumulator.
  - The last packet triggers the parse, the blind-signing check and the hash.

  `SignSession` proves the whole exchange. A session is fed bytes compatible with the encoding of a transaction, split into packets in any way. It then reaches the review screen with that transaction exactly when the bytes are the whole encoding. This holds under five conditions:
  - the hints processor accepts the transaction;
  - the hasher succeeds;
  - the transaction is not blind, or blind signing is enabled;
  - the total length is within `MAX_TRANSACTION_LEN`;
  - the total length is within `MAX_TX_LEN`.

`Bytes` holds the shared arithmetic: powers of two, right shifts, and big- and little-endian byte strings of numbers with their round trips. `Wrappers` holds `Option` and `Result`.

The build-time constants `MAX_TX_LEN`, `MAX_TRANSACTION_LEN` and `MAX_VALUE_BYTES_LEN` are defined outside the modelled files. They are kept as the fields of a `Limits` parameter, and the two length limits stay separate. `HASH_LEN` is 32, because an address is 33 bytes (src/common/buffer.h:267-279). Some routines are called but not modelled:

- the BIP32 path decoder and the path policy;
- the hints processor and the transaction hasher;
- the stored blind-signing setting.

They are parameters: fields of a `Host` record, or a function argument. The properties hold for any behaviour of these routines within the interface the model gives them:
- the hints processor can only accept or reject the record and set its blind flag;
- the hasher sees the parsed record and the received bytes.

"## Left out" lists what these interfaces leave out.

Some behaviours of the code are worth knowing:

- **`BitString_storeAddress` writes 267 bits.** These are a 2-bit tag, one 0 bit, an 8-bit chain and 256 hash bits (`AddressBits`).
- **A payload cell reference that is cut short reports `STATE_INIT_PARSING_ERROR`, not `PAYLOAD_PARSING_ERROR`** (src/transaction/deserialize.c:80). See `ShortPayloadRefIsStateInitError` and `CutCode`.
- **`BitString_finalize` pads `cursor % 8` bits, not up to the next byte boundary.** See Findings.
- **No failure of a continuation or final packet resets `req_type` or `raw_tx_len`.** This covers length errors, parse failures, a blind transaction and a hash failure. (A refused first packet has already wiped the context.) A later continuation packet therefore appends to the bytes already received (`Append`, `Finish`).

## Model

| member | source | states |
|---|---|---|
| `Reader.Remaining` | src/common/buffer.h:256-265 | the bytes left to read: they and the offset together make up the size |
| `Reader.CanReadIff` | src/common/buffer.c:27-29 | `can_read(n)` holds exactly when `size - offset >= n` |
| `Reader.SeekSet` | src/common/buffer.c:31-39 | succeeds iff the target is at most the size, then sets the offset to it; on failure the buffer is unchanged |
| `Reader.SeekCur` | src/common/buffer.c:41-50 | with the 32-bit wrap-around of the `size_t` sum modelled: succeeds iff `offset + k <= size` and then advances by `k`; on failure the buffer is unchanged |
| `Reader.SeekEnd` | src/common/buffer.c:52-60 | succeeds iff `k <= size` and then leaves exactly `k` bytes; on failure the buffer is unchanged |
| `Reader.ReadU8` | src/common/buffer.c:62-73 | fails without moving iff no byte is left; otherwise yields the byte at the offset and advances by one |
| `Reader.ReadFixed` | src/common/buffer.c:92-150 | the u16/u32/u48/u64 reads: fail without moving iff fewer than `w` bytes remain; otherwise yield the big- or little-endian value of the next `w` bytes, which is below `2^(8w)`, and advance exactly `w` |
| `Reader.ReadU48` | src/common/buffer.h:134-147 | consumes 6 bytes and yields their big- or little-endian value, as requested, which is below `2^48`; fails without moving iff fewer than 6 bytes remain |
| `Reader.ReadBool` | src/common/buffer.c:75-90 | succeeds iff a byte is left and it is 0x00 or 0x01; the result is `byte == 1` and the offset advances by one; otherwise nothing moves |
| `Reader.ReadBip32Path` | src/common/buffer.c:152-160 | succeeds iff the path decoder accepts the remaining bytes; the offset then advances by four bytes per component when that fits, and never moves otherwise |
| `Reader.Copy` | src/common/buffer.c:166-174 | fails iff more bytes remain than the output holds; otherwise copies every remaining byte; the buffer is never moved |
| `Reader.Move` | src/common/buffer.c:176-184 | as `Copy`, and on success leaves nothing to read; on failure the buffer is unchanged |
| `Reader.MoveCopies` | src/common/buffer.c:166-184 | `buffer_move` succeeds exactly when `buffer_copy` does and yields the bytes `buffer_copy` copies |
| `Reader.ReadRef` | src/common/buffer.c:186-194 | fails without moving iff fewer than `n` bytes remain; otherwise names the range `[offset, offset + n)` of the buffer and advances `n` |
| `Reader.ReadBuffer` | src/common/buffer.c:196-203 | fails without moving iff fewer than `n` bytes remain; otherwise yields exactly `data[offset..offset+n]` and advances `n` |
| `Reader.ReadVarUint` | src/common/buffer.c:205-218 | with length byte `L`: succeeds iff `L <= out_len` and `L` bytes follow, yielding them and advancing `1 + L`; both failures leave the length byte consumed; an empty buffer fails without moving |
| `Reader.ReadAddress` | src/common/buffer.c:220-228 | succeeds iff 33 bytes remain, yielding chain byte and 32-byte hash and advancing 33; a failed hash read leaves the chain byte consumed |
| `Reader.ReadCellRef` | src/common/buffer.c:230-238 | succeeds iff 34 bytes remain, yielding the big-endian 16-bit depth and the hash and advancing 34; a failed hash read leaves the two depth bytes consumed |
| `Reader.U8RoundTrip` | src/common/buffer.c:62-73 | reading a byte where it was written gives it back, or fails exactly when the input ends before it |
| `Reader.FixedRoundTrip` | src/common/buffer.c:92-150 | reading `w` bytes where the `w`-byte encoding of `v` sits gives `v` back in either byte order, or fails exactly when the input ends inside the encoding |
| `Reader.DecodeEncode` | src/common/buffer.c:92-150 | decoding is the inverse of the big- and little-endian encodings for every value that fits the width |
| `Reader.BoolRoundTrip` | src/common/buffer.c:75-90 | a written flag reads back as itself |
| `Reader.VarUintRoundTrip` | src/common/buffer.c:205-218 | a length-prefixed byte string reads back as itself and its whole encoding is consumed |
| `Reader.AddressRoundTrip` | src/common/buffer.c:220-228 | an encoded address reads back as itself and consumes 33 bytes |
| `Reader.CellRefRoundTrip` | src/common/buffer.c:230-238 | an encoded cell reference reads back as itself and consumes 34 bytes |
| `Reader.BeFixedConsumed` | src/common/buffer.c:92-150 | a big-endian read that succeeds has consumed exactly the `w`-byte encoding of the value it returns |
| `Reader.VarUintConsumed` | src/common/buffer.c:205-218 | a `varuint` read that succeeds has consumed exactly the length byte and the bytes it returns |
| `Reader.AddressConsumed` | src/common/buffer.c:220-228 | an address read that succeeds has consumed exactly the encoding of the returned address |
| `Reader.CellRefConsumed` | src/common/buffer.c:230-238 | a cell-reference read that succeeds has consumed exactly the encoding of the returned reference |
| `Deserializer.ParseTag` | src/transaction/deserialize.c:56-60 | succeeds iff a byte is left and it is 0x00; a missing or other tag gives `TAG_PARSING_ERROR` |
| `Deserializer.ParseHeader` | src/transaction/deserialize.c:56-69 | a header that parses fits the wire widths and the value limit; a failure carries one of the header codes, and a missing or non-zero tag gives the tag error |
| `Deserializer.ParseTransfer` | src/transaction/deserialize.c:65-69 | a parsed value is at most `MAX_VALUE_BYTES_LEN` bytes and the destination hash is 32 bytes; nothing to read, or a length byte above `MAX_VALUE_BYTES_LEN`, gives `VALUE_PARSING_ERROR`; failures carry only value, destination, bounce or send-mode codes |
| `Deserializer.ParseOptionalCellRef` | src/transaction/deserialize.c:72-81 | a missing or non-boolean flag stops with the flag code; flag 0 yields nothing and consumes one byte; flag 1 with a short cell reference stops with the reference code |
| `Deserializer.ParseHints` | src/transaction/deserialize.c:84-92 | a non-boolean or missing flag is a hints error; a set flag without a payload is a hints error before any hint byte is read; parsed hints fit their wire widths; every failure is a hints error |
| `Deserializer.ParseHintsFields` | src/transaction/deserialize.c:89-91 | a parsed hint type fits 32 bits and its data length 16 bits; every failure is a hints error |
| `Deserializer.ParseOptionals` | src/transaction/deserialize.c:71-92 | parsed optional parts satisfy the wire constraints (hints only with a payload); a missing or non-boolean state-init flag gives `STATE_INIT_PARSING_ERROR`; after an absent state-init, a non-boolean payload flag gives `PAYLOAD_PARSING_ERROR`; failures carry only state-init, payload or hints codes |
| `Deserializer.ShortPayloadRefIsStateInitError` | src/transaction/deserialize.c:77-81 | no state-init, then a set payload flag and a cut-short cell reference, stops with `STATE_INIT_PARSING_ERROR` |
| `Deserializer.ParseFields` | src/transaction/deserialize.c:56-92 | a successful field parse yields a well-formed, not-yet-blind record; a missing or non-zero tag gives the tag error; a failure never reports success |
| `Deserializer.Deserialize` | src/transaction/deserialize.c:51-98 | an oversized buffer gives `WRONG_LENGTH_ERROR` before any byte is read; a bad or missing tag gives the tag error; a success yields a well-formed transaction |
| `Deserializer.OversizedValueFails` | src/transaction/deserialize.c:51-66 | within `MAX_TX_LEN`, after a good tag and the two counters, a value length byte above `MAX_VALUE_BYTES_LEN` fails the whole parse with `VALUE_PARSING_ERROR` |
| `Deserializer.BadOptionalFlagsFail` | src/transaction/deserialize.c:51-78 | within `MAX_TX_LEN`, after a header that parses, a missing or non-boolean state-init flag fails the whole parse with `STATE_INIT_PARSING_ERROR`, and after an absent state-init a non-boolean payload flag fails it with `PAYLOAD_PARSING_ERROR` |
| `WireFormat.DeserializeEncoding` | src/transaction/deserialize.c:51-98 | on any input compatible with the encoding of a well-formed transaction: an oversized input gives the length error; a truncated input fails with the code of the field it ends in; otherwise a rejecting hints processor gives the hints error, whatever follows; otherwise trailing bytes give the length error; only the exact encoding returns the transaction, with the processor's blind flag |
| `WireFormat.DeserializeOnlyEncodings` | src/transaction/deserialize.c:51-98 | a successful parse means the buffer is exactly the encoding of the returned record |
| `WireFormat.FieldsConsumed` | src/transaction/deserialize.c:56-92 | a successful field parse has consumed exactly the encoding of the record it returns |
| `WireFormat.FieldsOn` | src/transaction/deserialize.c:56-92 | on such an input the field parse yields the transaction and stops just after its encoding, or fails with the code of the field the input ends in |
| `Bits.StoreBit` | src/common/bits.c:11-20 | the capacity is kept and the cursor advances by one |
| `Bits.StoreBitWrote` | src/common/bits.c:11-20 | storing a bit sets array bit `cursor` to `v > 0` and leaves every other bit of the array unchanged |
| `Bits.BitsOfSetBit` | src/common/bits.c:14-17 | setting or clearing bit `7 - c % 8` of byte `c / 8` changes bit `c` of the array's bit image and no other |
| `Bits.FromToBits` | src/common/bits.c:22-27 | the `n` bits stored for `v` read back, big-endian, as `v mod 2^n` |
| `Bits.StoreUint` | src/common/bits.c:22-27 | appends exactly `bits` bits at the cursor, the low `bits` bits of `v` most significant first, and changes nothing else |
| `Bits.MeasureCoins` | src/common/bits.c:31-41 | the measuring loop computes the minimal byte count of `v` |
| `Bits.CoinsLenMinimal` | src/common/bits.c:31-41 | `v` fits in `len` bytes but not in `len - 1`, and `len` is 0 iff `v` is 0 |
| `Bits.CoinsLenAtMostEight` | src/common/bits.c:31-41 | a 64-bit amount never needs more than 8 bytes |
| `Bits.StoreCoins` | src/common/bits.c:29-51 | appends the 4-bit byte count followed by the `len` low bytes of `v` big-endian, `4 + 8 * len` bits in all, changing nothing else |
| `Bits.CoinsRoundTrip` | src/common/bits.c:29-51 | reading a coins field back from the stored bits gives `v` and consumes exactly the stored bits, whatever follows |
| `Bits.StoreBuffer` | src/common/bits.c:53-57 | appends the first `length` bytes, each most significant bit first, `8 * length` bits in all, changing nothing else |
| `Bits.StoreAddress` | src/common/bits.c:59-64 | appends the 267 address bits at the cursor and changes nothing else |
| `Bits.AddressBitsDecode` | src/common/bits.c:59-64 | the stored address starts with `10`, then `0`, then the chain byte, then the 256 hash bits, and each part reads back as its value |
| `Bits.StoreAddressNull` | src/common/bits.c:66-68 | appends exactly two 0 bits and changes nothing else |
| `Bits.Finalize` | src/common/bits.c:70-79 | as written: appends `cursor % 8` bits, a 1 followed by zeros, and nothing when the cursor is aligned |
| `Bits.FinalizeAlignedIff` | src/common/bits.c:70-79 | as written, the cursor ends on a byte boundary iff it started on one or at 4 mod 8 |
| `Bits.FinalizeOneBitLeavesUnaligned` | src/common/bits.c:70-79 | as written, one stored bit finalizes to cursor 2, and finalizing again moves it to 4: not aligned, not idempotent |
| `Bits.FinalizeToByte` | src/common/bits.c:70-79 | corrected: appends a 1 and zeros up to the next byte boundary (nothing when aligned) and ends aligned |
| `Bits.FinalizeToByteIdempotent` | src/common/bits.c:70-79 | corrected: finalizing twice is finalizing once |
| `Bits.FinalizeToByteRecoverable` | src/common/bits.c:70-79 | corrected: stripping the trailing zeros and the 1 marker from the padded bits gives back exactly the bits written before |
| `SignTx.Reset` | src/handler/sign_tx.c:39 | the wiped context holds no session, has received nothing, and its accumulator is all zeros |
| `SignTx.Begin` | src/handler/sign_tx.c:38-56 | a first packet with no length byte or an unreadable path gives `SW_WRONG_DATA_LENGTH`; a rejected path gives `SW_BAD_BIP32_PATH`; only an accepted path opens a session with that path and returns `SW_OK`; in every case the context is wiped: state `STATE_NONE`, an all-zero accumulator, nothing received, nothing parsed or hashed |
| `SignTx.Appended` | src/handler/sign_tx.c:66-70 | the received bytes become the old ones followed by the packet; the unused rest of the accumulator and every other field are unchanged |
| `SignTx.Append` | src/handler/sign_tx.c:58-74 | `SW_BAD_STATE` exactly outside a session, with the context untouched; in a session, `SW_WRONG_TX_LENGTH` iff the total would pass the cap, with the context untouched; a total exactly at the cap is accepted; an accepted packet is appended, and then the answer is `SW_OK` with nothing parsed when more is to come, or the last packet goes on to `Finish` |
| `SignTx.LengthCheckAsWrittenIff` | src/handler/sign_tx.c:62-64 | as written, the `size_t` length test passes iff the sum fits the accumulator, or the sum wraps past 2^32 and its low 32 bits fit |
| `SignTx.LengthCheckWrapAdmits` | src/handler/sign_tx.c:62-66 | with 100 bytes received into a 1000-byte accumulator, a packet of 2^32 - 50 bytes passes the test as written though it does not fit, while `Append` refuses it |
| `SignTx.Finish` | src/handler/sign_tx.c:76-101 | parses exactly the received bytes from offset 0; a parse failure gives `SW_TX_PARSING_FAIL`; a blind transaction with blind signing off gives `SW_BLIND_SIGNING_DISABLED`; the review is reached iff parse, blind check and hash all pass, and only then is the state `STATE_PARSED` and the stored hash the one `hash_tx` produced for the parsed record and the received bytes; request type and accumulator never change |
| `SignTx.Step` | src/handler/sign_tx.c:37-102 | every packet keeps the accumulator invariant; a first packet leaves nothing received; a continuation never shrinks the received length or changes the request type |
| `SignTx.Feed` | src/handler/sign_tx.c:58-74 | a run of continuation packets keeps the invariant and the request type, and never shrinks the received length |
| `SignTx.FeedAppends` | src/handler/sign_tx.c:62-74 | inside a session, packets that fit accumulate as the earlier bytes followed by their concatenation, and the state, parsed record and hash stay as they were |
| `SignTx.NoSessionRefuses` | src/handler/sign_tx.c:58-60 | after a wipe, or after a refused first packet, a continuation packet gives `SW_BAD_STATE` and changes nothing |
| `SignTx.SignSession` | src/handler/sign_tx.c:37-102 | a session fed, in any packet split, bytes compatible with the encoding of a well-formed transaction reaches the review with that transaction, and the hash of it and of those bytes stored, iff the bytes are the whole encoding, and otherwise fails the parse |

## Left out

- I/O and UI are not modelled: `io_send_sw`, `ui_display_transaction`, `ui_blind_signing_error` and `PRINTF`. The review screen is the status `Review`.
- The hash and the signature are not modelled: hashing, signing and key derivation are cryptography. `hash_tx` is an uninterpreted parameter.
- `hash_tx` sees the parsed record and the received bytes. In the source it is given all of `tx_info`, which also holds the unused tail of the accumulator.
- `process_hints` is limited to accepting or rejecting the record and setting `is_blind`. In the source it may write other fields of the record, which this model does not have.
- The hints processor always sees the record with `isBlind` false. In the source, a second parse within one session starts from the `is_blind` left by the earlier parse, because only a first packet wipes the context.
- Persistent storage is not modelled: the `N_storage` blind-signing setting is a boolean parameter.
- `bip32_path_read`, `check_global_bip32_path` and `process_hints` are uninterpreted parameters, because their code is not part of this model.
- `explicit_bzero` is modelled only as the wiped context `Reset`, not as a memory operation.
- Out-parameters zeroed on failure are not represented: a failed read returns no value at all.
- The partially filled transaction record on a parse failure is not represented. On a parse failure the model leaves the stored transaction as it was.
- Aliasing between source and destination and the `memmove` semantics are not modelled: copies are sequence slices.
- The packet is read from offset 0. A packet buffer with a non-zero offset is not modelled.
- `SignTx.Append`: does not model the wrap of the `size_t` sum `raw_tx_len + size`. When the sum wraps past 2^32 and its low 32 bits fit the accumulator, the code passes the length test and `buffer_move` then writes past the end of `raw_tx`, which a bounded sequence cannot represent. The model answers `SW_WRONG_TX_LENGTH` there instead (see Findings).
- The values of `req_type` and `state` set by other handlers are collapsed into `OtherRequest` and `StateOther`. The all-zero `req_type` is taken to differ from `CONFIRM_TRANSACTION`, because the enum is not part of this model.
- `Bits.StoreBit`: its contract states only the capacity and the cursor. Its effect on the bits is stated by `Bits.StoreBitWrote`.
- `Bits.StoreUint`: requires `bits <= 64`, because a wider shift of a `uint64_t` is undefined in C.
- The stores require the cursor to stay within the array's capacity, because the source has no capacity check.
- `BitString_init` is not modelled separately: it only sets the cursor to 0.

## Findings

| source | as written | input that shows it | evidently intended | confidence | as-written member | corrected member |
|---|---|---|---|---|---|---|
| src/common/bits.c:70-79 | `finalize` appends `cursor % 8` bits (a 1 then zeros), so the cursor reaches a byte boundary only from 0 or 4 mod 8 | a writer holding 1 bit: `finalize` leaves cursor 2, and a second `finalize` moves it to 4 | pad with a 1 and zeros up to the next byte boundary, and pad nothing when aligned, so that finalizing is idempotent | not executed | `Bits.Finalize` | `Bits.FinalizeToByte` |
| src/handler/sign_tx.c:62-66 | the length test adds `raw_tx_len` and the packet size in a `size_t`, which wraps | 100 bytes received, a 1000-byte accumulator, a packet of 2^32 - 50 bytes: the sum wraps to 50, the test passes and the copy writes past `raw_tx` | refuse every packet whose true total exceeds the accumulator | not executed; low, since a transport that caps packets far below 2^32 bytes never delivers such a packet, and the transport is not part of this model | `SignTx.LengthCheckAsWritten`, `SignTx.LengthCheckWrapAdmits` | `SignTx.Append` |

=== FILE: bits.dfy ===
/**
  The bit writer of src/common/bits.c: a fixed-capacity byte array with a bit
  cursor, filled most significant bit first. The byte array is the state the
  source keeps; `Image` reads it back as a bit sequence, and every store is
  specified by what it does to that sequence (`Wrote`): the bits before the
  cursor and after the stored run are left as they were, and the run is the
  stored value's bit string.
 */
module Bits {
  import opened Bytes
  import opened Wrappers

  /** `struct BitString_t`: the storage array and the count of bits written. */
  datatype BitString = BitString(data: seq<Byte>, cursor: nat)

  // ---------------------------------------------------------------------
  // Bit strings of numbers
  // ---------------------------------------------------------------------

  /** The low `n` bits of `v`, most significant first. */
  function ToBits(v: nat, n: nat): (r: seq<bool>)
    ensures |r| == n
  {
    if n == 0 then [] else ToBits(v / 2, n - 1) + [v % 2 == 1]
  }

  /** The number a bit string denotes, most significant bit first. */
  function FromBits(s: seq<bool>): nat
  {
    if |s| == 0 then 0 else 2 * FromBits(s[..|s| - 1]) + (if s[|s| - 1] then 1 else 0)
  }

  lemma {:induction false} FromBitsBound(s: seq<bool>)
    ensures FromBits(s) < Pow2(|s|)
  {
    if |s| > 0 {
      FromBitsBound(s[..|s| - 1]);
    }
  }

  /** Writing `n` bits and reading them back yields the value modulo `2^n`. */
  lemma {:induction false} FromToBits(v: nat, n: nat)
    ensures FromBits(ToBits(v, n)) == v % Pow2(n)
  {
    if n > 0 {
      FromToBits(v / 2, n - 1);
      assert ToBits(v, n)[..n - 1] == ToBits(v / 2, n - 1);
      ModHalve(v, Pow2(n - 1));
    }
  }

  /** A value that fits in `n` bits is read back unchanged. */
  lemma FitsRoundTrip(v: nat, n: nat)
    requires v < Pow2(n)
    ensures FromBits(ToBits(v, n)) == v
  {
    FromToBits(v, n);
    DivModUnique(v, Pow2(n), 0, v);
  }

  lemma ModHalve(v: nat, m: nat)
    requires m > 0
    ensures v % (2 * m) == 2 * ((v / 2) % m) + v % 2
  {
    var q, r := (v / 2) / m, 2 * ((v / 2) % m) + v % 2;
    assert v == q * (2 * m) + r;
    DivModUnique(v, 2 * m, q, r);
  }

  lemma DivModUnique(v: int, d: int, q: int, r: int)
    requires d > 0 && 0 <= r < d && v == q * d + r
    ensures v % d == r
  {
    var q', r' := v / d, v % d;
    var k := q - q';
    assert v == q' * d + r';
    assert k * d == r' - r by {
      assert q * d - q' * d == (q - q') * d;
    }
    if k > 0 {
      MulAtLeast(k, d);
    } else if k < 0 {
      MulAtLeast(-k, d);
    }
  }

  lemma MulAtLeast(k: int, d: int)
    requires k >= 1 && d > 0
    ensures k * d >= d
  {
    assert k * d == (k - 1) * d + d;
  }

  /** Reading a bit string as a number and writing it back at the same width is the identity. */
  lemma {:induction false} ToFromBits(s: seq<bool>)
    ensures ToBits(FromBits(s), |s|) == s
  {
    if |s| > 0 {
      var p := s[..|s| - 1];
      ToFromBits(p);
      assert s == p + [s[|s| - 1]];
    }
  }

  /** Bit `i` of the `n`-bit string is the low bit of `v >> (n - 1 - i)`. */
  lemma {:induction false} ToBitsAt(v: nat, n: nat, i: nat)
    requires i < n
    ensures ToBits(v, n)[i] == (Shr(v, n - 1 - i) % 2 == 1)
  {
    if i < n - 1 {
      ToBitsAt(v / 2, n - 1, i);
    }
  }

  /** The `a + b` low bits of `x` are the `a` bits above the low `b`, then the low `b`. */
  lemma {:induction false} ToBitsSplit(x: nat, a: nat, b: nat)
    ensures ToBits(x, a + b) == ToBits(Shr(x, b), a) + ToBits(x, b)
  {
    if b > 0 {
      ToBitsSplit(x / 2, a, b - 1);
      assert ToBits(x, a + b) == ToBits(x / 2, a + (b - 1)) + [x % 2 == 1];
    }
  }

  /** One more step of a most-significant-first walk over the low bits of `v`. */
  lemma ToBitsStep(v: nat, k: nat, i: nat)
    ensures ToBits(Shr(v, k + 1), i) + [Shr(v, k) % 2 == 1] == ToBits(Shr(v, k), i + 1)
  {
    ShrAdd(v, k, 1);
  }

  // ---------------------------------------------------------------------
  // Bytes as bits
  // ---------------------------------------------------------------------

  /** The bits of a byte array, each byte most significant bit first. */
  function BitsOf(d: seq<Byte>): (r: seq<bool>)
    ensures |r| == 8 * |d|
  {
    if |d| == 0 then [] else ToBits(d[0] as nat, 8) + BitsOf(d[1..])
  }

  /** The byte array a bit string of whole bytes denotes; the partner of `BitsOf`. */
  function BytesOf(s: seq<bool>): (r: seq<Byte>)
    requires |s| % 8 == 0
    ensures |r| == |s| / 8
  {
    if |s| == 0 then []
    else
      FromBitsBound(s[..8]);
      [FromBits(s[..8]) as Byte] + BytesOf(s[8..])
  }

  lemma {:induction false} BytesOfBitsOf(d: seq<Byte>)
    ensures BytesOf(BitsOf(d)) == d
  {
    if |d| > 0 {
      BitsOfCons(d);
      ByteBits(d[0]);
      BytesOfBitsOf(d[1..]);
      assert d == [d[0]] + d[1..];
    }
  }

  lemma BitsOfCons(d: seq<Byte>)
    requires |d| > 0
    ensures BitsOf(d)[..8] == ToBits(d[0] as nat, 8)
    ensures BitsOf(d)[8..] == BitsOf(d[1..])
  {
  }

  lemma {:induction false} BitsOfAppend(a: seq<Byte>, b: seq<Byte>)
    ensures BitsOf(a + b) == BitsOf(a) + BitsOf(b)
  {
    if |a| == 0 {
      assert a + b == b;
    } else {
      assert (a + b)[1..] == a[1..] + b;
      BitsOfAppend(a[1..], b);
    }
  }

  /** Bit `i` of the array is bit `i % 8` of byte `i / 8`. */
  lemma {:induction false} BitsOfAt(d: seq<Byte>, i: nat)
    requires i < 8 * |d|
    ensures BitsOf(d)[i] == ToBits(d[i / 8] as nat, 8)[i % 8]
  {
    if i >= 8 {
      BitsOfAt(d[1..], i - 8);
      assert (i - 8) / 8 == i / 8 - 1 && (i - 8) % 8 == i % 8;
      assert BitsOf(d)[i] == BitsOf(d[1..])[i - 8];
    }
  }

  // ---------------------------------------------------------------------
  // The writer's state, read as bits
  // ---------------------------------------------------------------------

  /** Every bit of the storage array. */
  function Image(w: BitString): seq<bool>
  {
    BitsOf(w.data)
  }

  /** The bits written so far. */
  function Written(w: BitString): seq<bool>
    requires w.cursor <= 8 * |w.data|
  {
    Image(w)[..w.cursor]
  }

  /** `a` with the run starting at `c` replaced by `s`. */
  function Splice(a: seq<bool>, c: nat, s: seq<bool>): (r: seq<bool>)
    requires c + |s| <= |a|
    ensures |r| == |a|
  {
    a[..c] + s + a[c + |s|..]
  }

  /**
    `r` is `w` after storing the bits `s` at the cursor: same capacity, the
    cursor advanced past `s`, the storage holding `s` there and nothing else
    changed.
   */
  predicate Wrote(w: BitString, r: BitString, s: seq<bool>)
  {
    && |r.data| == |w.data|
    && w.cursor + |s| <= 8 * |w.data|
    && r.cursor == w.cursor + |s|
    && Image(r) == Splice(Image(w), w.cursor, s)
  }

  lemma WroteNothing(w: BitString)
    requires w.cursor <= 8 * |w.data|
    ensures Wrote(w, w, [])
  {
    assert Image(w)[..w.cursor] + [] + Image(w)[w.cursor..] == Image(w);
  }

  /** Two stores in a row store the concatenation. */
  lemma WroteChain(a: BitString, b: BitString, c: BitString, s: seq<bool>, t: seq<bool>)
    requires Wrote(a, b, s) && Wrote(b, c, t)
    ensures Wrote(a, c, s + t)
  {
    var x, k := Image(a), a.cursor;
    var y := Splice(x, k, s);
    assert y[..k + |s|] == x[..k] + s;
    assert y[k + |s| + |t|..] == x[k + |s| + |t|..];
    assert Image(c) == x[..k] + s + t + x[k + |s + t|..];
  }

  /** What a store leaves as the written prefix: the old one followed by the stored bits. */
  lemma WroteWritten(w: BitString, r: BitString, s: seq<bool>)
    requires w.cursor <= 8 * |w.data| && Wrote(w, r, s)
    ensures Written(r) == Written(w) + s
    ensures Image(r)[r.cursor..] == Image(w)[r.cursor..]
  {
    var x := Image(w);
    assert Image(r)[..r.cursor] == x[..w.cursor] + s;
  }

  // ---------------------------------------------------------------------
  // BitString_storeBit
  // ---------------------------------------------------------------------

  /**
    `b | (1 << (7 - k))` when `x` holds, `b & ~(1 << (7 - k))` otherwise:
    the `k`-th bit of `b` from the most significant one forced to `x`.
   */
  function SetBit(b: Byte, k: nat, x: bool): (r: Byte)
    requires k < 8
  {
    var mask := Pow2(7 - k);
    if ToBits(b as nat, 8)[k] == x then b
    else if x then
      FlipOn(b, k);
      (b as int + mask) as Byte
    else
      FlipOff(b, k);
      (b as int - mask) as Byte
  }

  /** The bits of a byte read back as a number are the byte. */
  lemma ByteBits(b: Byte)
    ensures FromBits(ToBits(b as nat, 8)) == b as nat
  {
    Pow2Byte(0);
    FitsRoundTrip(b as nat, 8);
  }

  /** Adding the mask of a clear bit sets exactly that bit. */
  lemma FlipOn(b: Byte, k: nat)
    requires k < 8 && !ToBits(b as nat, 8)[k]
    ensures b as int + Pow2(7 - k) < 256
    ensures ToBits(b as nat + Pow2(7 - k), 8) == ToBits(b as nat, 8)[k := true]
  {
    ByteBits(b);
    SetClearBit(ToBits(b as nat, 8), k);
  }

  lemma SetClearBit(s: seq<bool>, k: nat)
    requires |s| == 8 && k < 8 && !s[k]
    ensures FromBits(s) + Pow2(7 - k) < 256
    ensures ToBits(FromBits(s) + Pow2(7 - k), 8) == s[k := true]
  {
    var t := s[k := true];
    FromBitsSet(s, k);
    assert FromBits(t) == FromBits(s) + Pow2(7 - k);
    FromBitsBound(t);
    assert Pow2(8) == 256;
    ToFromBits(t);
  }

  /** Subtracting the mask of a set bit clears exactly that bit. */
  lemma FlipOff(b: Byte, k: nat)
    requires k < 8 && ToBits(b as nat, 8)[k]
    ensures b as int - Pow2(7 - k) >= 0
    ensures ToBits(b as nat - Pow2(7 - k), 8) == ToBits(b as nat, 8)[k := false]
  {
    ByteBits(b);
    ClearSetBit(ToBits(b as nat, 8), k);
  }

  lemma ClearSetBit(s: seq<bool>, k: nat)
    requires |s| == 8 && k < 8 && s[k]
    ensures FromBits(s) - Pow2(7 - k) >= 0
    ensures ToBits(FromBits(s) - Pow2(7 - k), 8) == s[k := false]
  {
    var c := s[k := false];
    assert c[k := true] == s;
    FromBitsSet(c, k);
    ToFromBits(c);
  }

  /** Setting a clear bit adds its place value. */
  lemma {:induction false} FromBitsSet(s: seq<bool>, k: nat)
    requires k < |s| && !s[k]
    ensures FromBits(s[k := true]) == FromBits(s) + Pow2(|s| - 1 - k)
  {
    var n := |s|;
    var t := s[k := true];
    if k < n - 1 {
      assert t[..n - 1] == s[..n - 1][k := true];
      FromBitsSet(s[..n - 1], k);
    } else {
      assert t[..n - 1] == s[..n - 1];
    }
  }

  lemma SetBitBits(b: Byte, k: nat, x: bool)
    requires k < 8
    ensures ToBits(SetBit(b, k, x) as nat, 8) == ToBits(b as nat, 8)[k := x]
  {
    var s := ToBits(b as nat, 8);
    if s[k] == x {
      assert s[k := x] == s;
    } else if x {
      FlipOn(b, k);
    } else {
      FlipOff(b, k);
    }
  }

  /**
    `BitString_storeBit`: set (when `v > 0`) or clear bit `7 - cursor % 8` of
    byte `cursor / 8`, then advance the cursor. The source has no capacity
    check; the cursor must address a bit of the array.
   */
  function StoreBit(w: BitString, v: int): (r: BitString)
    requires w.cursor < 8 * |w.data|
    ensures |r.data| == |w.data| && r.cursor == w.cursor + 1
  {
    var i := w.cursor / 8;
    BitString(w.data[i := SetBit(w.data[i], w.cursor % 8, v > 0)], w.cursor + 1)
  }

  /** A stored bit lands at the cursor and every other bit of the array keeps its value. */
  lemma StoreBitWrote(w: BitString, v: int)
    requires w.cursor < 8 * |w.data|
    ensures Wrote(w, StoreBit(w, v), [v > 0])
  {
    var c, x := w.cursor, v > 0;
    BitsOfSetBit(w.data, c, x);
    var a := BitsOf(w.data);
    assert a[c := x] == Splice(a, c, [x]);
  }

  /** Forcing one bit of one byte changes that bit of the array and no other. */
  lemma BitsOfSetBit(d: seq<Byte>, c: nat, x: bool)
    requires c < 8 * |d|
    ensures BitsOf(d[c / 8 := SetBit(d[c / 8], c % 8, x)]) == BitsOf(d)[c := x]
  {
    var d' := d[c / 8 := SetBit(d[c / 8], c % 8, x)];
    SetBitBits(d[c / 8], c % 8, x);
    forall i | 0 <= i < 8 * |d|
      ensures BitsOf(d')[i] == BitsOf(d)[c := x][i]
    {
      BitsOfAt(d, i);
      BitsOfAt(d', i);
      SameBit(c, i);
    }
  }

  /** Two bit positions in the same byte at the same place within it are one position. */
  lemma SameBit(c: nat, i: nat)
    ensures (c / 8 == i / 8 && c % 8 == i % 8) <==> c == i
  {
  }

  // ---------------------------------------------------------------------
  // BitString_storeUint, storeCoins, storeBuffer, storeAddress(Null)
  // ---------------------------------------------------------------------

  /**
    `BitString_storeUint`: the low `bits` bits of `v`, most significant first.
    A shift by 64 or more is undefined for `uint64_t`, so `bits` is at most 64.
   */
  method StoreUint(w: BitString, v: nat, bits: nat) returns (r: BitString)
    requires v < Pow2(64) && bits <= 64
    requires w.cursor + bits <= 8 * |w.data|
    ensures Wrote(w, r, ToBits(v, bits))
  {
    r := w;
    WroteNothing(w);
    var i := 0;
    while i < bits
      invariant i <= bits
      invariant Wrote(w, r, ToBits(Shr(v, bits - i), i))
    {
      UintBit(w, r, v, bits, i);
      r := StoreBit(r, Shr(v, bits - i - 1) % 2);
      i := i + 1;
    }
  }

  /** One pass of the loop of `storeUint`: the next bit down joins the written run. */
  lemma UintBit(w: BitString, r: BitString, v: nat, bits: nat, i: nat)
    requires i < bits && r.cursor < 8 * |r.data|
    requires Wrote(w, r, ToBits(Shr(v, bits - i), i))
    ensures Wrote(w, StoreBit(r, Shr(v, bits - i - 1) % 2), ToBits(Shr(v, bits - (i + 1)), i + 1))
  {
    var k := bits - i - 1;
    var b := Shr(v, k) % 2;
    StoreBitWrote(r, b);
    WroteChain(w, r, StoreBit(r, b), ToBits(Shr(v, k + 1), i), [b > 0]);
    ToBitsStep(v, k, i);
  }

  /** Number of bytes `storeCoins` writes for `v`: none for 0, else one more than for `v >> 8`. */
  function CoinsLen(v: nat): nat
  {
    if v == 0 then 0 else 1 + CoinsLen(v / 256)
  }

  /** A shift by eight drops the low byte. */
  lemma Shr8(x: nat)
    ensures Shr(x, 8) == x / 256
  {
    ShrAdd(x, 4, 4);
    Shr4(x);
    Shr4(x / 16);
    assert x / 16 / 16 == x / 256;
  }

  /** A shift by four drops the low nibble. */
  lemma Shr4(x: nat)
    ensures Shr(x, 4) == x / 16
  {
    var x1, x2, x3 := x / 2, x / 4, x / 8;
    assert Shr(x, 4) == Shr(x1, 3) == Shr(x2, 2) == Shr(x3, 1) == x3 / 2;
  }

  lemma {:induction false} ShrSmaller(v: nat, k: nat)
    requires v > 0 && k > 0
    ensures Shr(v, k) < v
  {
    if k > 1 && v / 2 > 0 {
      ShrSmaller(v / 2, k - 1);
    } else if k > 1 {
      ShrZeroIffFits(v / 2, k - 1);
    }
  }

  /** The bits `storeCoins` writes: a 4-bit byte count, then that many low bytes of `v`. */
  function CoinsBits(v: nat): (r: seq<bool>)
  {
    ToBits(CoinsLen(v), 4) + ToBits(v, 8 * CoinsLen(v))
  }

  /** The first loop of `BitString_storeCoins`: count the bytes of `v`, at most eight. */
  method MeasureCoins(v: nat) returns (len: nat)
    requires v < Pow2(64)
    ensures len == CoinsLen(v)
  {
    len := 0;
    var x := v;
    var i := 0;
    while i < 8
      invariant i <= 8 && len == i
      invariant x == Shr(v, 8 * len)
      invariant CoinsLen(v) == len + CoinsLen(x)
    {
      if x > 0 {
        MeasureStep(v, len, x);
        len := len + 1;
        x := Shr(x, 8);
        i := i + 1;
      } else {
        break;
      }
    }
    if x > 0 {
      ShrZeroIffFits(v, 64);
    }
  }

  lemma MeasureStep(v: nat, len: nat, x: nat)
    requires x == Shr(v, 8 * len) && x > 0
    ensures Shr(x, 8) == Shr(v, 8 * (len + 1))
    ensures CoinsLen(x) == 1 + CoinsLen(Shr(x, 8))
  {
    ShrAdd(v, 8 * len, 8);
    Shr8(x);
  }

  /**
    `BitString_storeCoins`: measure the byte length of `v` (at most eight
    bytes of a `uint64_t`), write it in four bits, then write the bytes from
    the most significant one down.
   */
  method StoreCoins(w: BitString, v: nat) returns (r: BitString)
    requires v < Pow2(64)
    requires w.cursor + 4 + 8 * CoinsLen(v) <= 8 * |w.data|
    ensures Wrote(w, r, CoinsBits(v))
  {
    var len := MeasureCoins(v);
    var head := ToBits(len, 4);
    CoinsLenAtMostEight(v);
    Pow2Byte(0);
    Pow2Mono(8, 64);
    r := StoreUint(w, len, 4);
    assert head + ToBits(Shr(v, 8 * len), 0) == head;
    var j := 0;
    while j < len
      invariant j <= len
      invariant Wrote(w, r, head + ToBits(Shr(v, 8 * (len - j)), 8 * j))
    {
      ShrFits(v, 8 * (len - j - 1));
      var next := StoreUint(r, Shr(v, 8 * (len - j - 1)), 8);
      CoinsByte(w, r, next, head, v, len, j);
      r := next;
      j := j + 1;
    }
    assert Shr(v, 0) == v;
  }

  /** One pass of the second loop of `storeCoins`: the next byte down joins the written run. */
  lemma CoinsByte(w: BitString, r: BitString, next: BitString, head: seq<bool>, v: nat, len: nat, j: nat)
    requires j < len
    requires Wrote(w, r, head + ToBits(Shr(v, 8 * (len - j)), 8 * j))
    requires Wrote(r, next, ToBits(Shr(v, 8 * (len - j - 1)), 8))
    ensures Wrote(w, next, head + ToBits(Shr(v, 8 * (len - (j + 1))), 8 * (j + 1)))
  {
    var k := 8 * (len - j - 1);
    assert 8 * (len - j) == k + 8;
    var part := ToBits(Shr(v, k + 8), 8 * j);
    WroteChain(w, r, next, head + part, ToBits(Shr(v, k), 8));
    ToBitsSplit(Shr(v, k), 8 * j, 8);
    ShrAdd(v, k, 8);
    assert head + part + ToBits(Shr(v, k), 8) == head + ToBits(Shr(v, k), 8 * (j + 1));
  }

  lemma {:induction false} Pow2Mono(a: nat, b: nat)
    requires a <= b
    ensures Pow2(a) <= Pow2(b)
  {
    if a < b {
      Pow2Mono(a, b - 1);
    }
  }

  lemma ShrFits(v: nat, k: nat)
    requires v < Pow2(64)
    ensures Shr(v, k) < Pow2(64)
  {
    if k > 0 && v > 0 {
      ShrSmaller(v, k);
    }
  }

  /** The byte count of `storeCoins` is the least that holds `v`, and zero only for zero. */
  lemma CoinsLenMinimal(v: nat)
    ensures v < Pow2(8 * CoinsLen(v))
    ensures CoinsLen(v) > 0 ==> Pow2(8 * (CoinsLen(v) - 1)) <= v
    ensures CoinsLen(v) == 0 <==> v == 0
  {
    CoinsLenUpper(v);
    CoinsLenLower(v);
  }

  lemma {:induction false} CoinsLenUpper(v: nat)
    ensures v < Pow2(8 * CoinsLen(v))
  {
    if v > 0 {
      var n := CoinsLen(v / 256);
      CoinsLenUpper(v / 256);
      Pow2Byte(n);
      assert 8 * CoinsLen(v) == 8 * n + 8;
    }
  }

  lemma {:induction false} CoinsLenLower(v: nat)
    ensures CoinsLen(v) > 0 ==> Pow2(8 * (CoinsLen(v) - 1)) <= v
  {
    if v > 0 {
      var n := CoinsLen(v / 256);
      CoinsLenLower(v / 256);
      if n > 0 {
        Pow2Byte(n - 1);
        assert 8 * (CoinsLen(v) - 1) == 8 * (n - 1) + 8;
      }
    }
  }

  /** A `uint64_t` needs at most eight bytes. */
  lemma CoinsLenAtMostEight(v: nat)
    requires v < Pow2(64)
    ensures CoinsLen(v) <= 8
  {
    CoinsLenMinimal(v);
    if CoinsLen(v) > 8 {
      Pow2Mono(64, 8 * (CoinsLen(v) - 1));
    }
  }

  /**
    Reading a coins field back: a 4-bit byte count, then that many bytes as a
    big-endian number; `None` when the bits run out first.
   */
  function ReadCoins(s: seq<bool>): (r: Option<(nat, nat)>)
    ensures r.Some? ==> r.value.1 <= |s|
  {
    if |s| < 4 then None
    else
      var n := 4 + 8 * FromBits(s[..4]);
      if |s| < n then None else Some((FromBits(s[4..n]), n))
  }

  /** The coins field is read back as the value it was written from, whatever follows it. */
  lemma CoinsRoundTrip(v: nat, rest: seq<bool>)
    requires v < Pow2(64)
    ensures ReadCoins(CoinsBits(v) + rest) == Some((v, |CoinsBits(v)|))
  {
    CoinsFit(v);
    CoinsReadBack(v, rest);
  }

  /** A `uint64_t` coins value: its byte count fits the 4-bit field and its bytes give it back. */
  lemma CoinsFit(v: nat)
    requires v < Pow2(64)
    ensures CoinsLen(v) <= 8 && FromBits(ToBits(v, 8 * CoinsLen(v))) == v
  {
    CoinsLenAtMostEight(v);
    CoinsLenMinimal(v);
    FitsRoundTrip(v, 8 * CoinsLen(v));
  }

  lemma CoinsReadBack(v: nat, rest: seq<bool>)
    requires CoinsLen(v) <= 8
    requires FromBits(ToBits(v, 8 * CoinsLen(v))) == v
    ensures ReadCoins(CoinsBits(v) + rest) == Some((v, |CoinsBits(v)|))
  {
    CoinsParts(v, rest);
    NibbleRoundTrip(CoinsLen(v));
    ReadCoinsOf(CoinsBits(v) + rest, v, CoinsLen(v));
  }

  /** Where the two fields of a coins encoding sit when more bits follow it. */
  lemma CoinsParts(v: nat, rest: seq<bool>)
    ensures (CoinsBits(v) + rest)[..4] == ToBits(CoinsLen(v), 4)
    ensures (CoinsBits(v) + rest)[4..4 + 8 * CoinsLen(v)] == ToBits(v, 8 * CoinsLen(v))
  {
    var len := CoinsLen(v);
    var head, body := ToBits(len, 4), ToBits(v, 8 * len);
    assert (head + body + rest)[..4] == head;
    assert (head + body + rest)[4..4 + 8 * len] == body;
  }

  lemma NibbleRoundTrip(n: nat)
    requires n < 16
    ensures FromBits(ToBits(n, 4)) == n
  {
    assert Pow2(4) == 16;
    FitsRoundTrip(n, 4);
  }

  /** `ReadCoins` on bits whose count field and value field read as `len` and `v`. */
  lemma ReadCoinsOf(s: seq<bool>, v: nat, len: nat)
    requires |s| >= 4 + 8 * len
    requires FromBits(s[..4]) == len && FromBits(s[4..4 + 8 * len]) == v
    ensures ReadCoins(s) == Some((v, 4 + 8 * len))
  {
  }

  /**
    `BitString_storeBuffer`: the first `length` bytes of `v`, in order, each
    most significant bit first.
   */
  method StoreBuffer(w: BitString, v: seq<Byte>, length: nat) returns (r: BitString)
    requires length < 256 && length <= |v|
    requires w.cursor + 8 * length <= 8 * |w.data|
    ensures Wrote(w, r, BitsOf(v[..length]))
  {
    r := w;
    WroteNothing(w);
    var i := 0;
    while i < length
      invariant i <= length
      invariant Wrote(w, r, BitsOf(v[..i]))
    {
      ByteFitsU64(v[i]);
      var next := StoreUint(r, v[i] as nat, 8);
      BufferByte(w, r, next, v, i);
      r := next;
      i := i + 1;
    }
  }

  lemma ByteFitsU64(b: Byte)
    ensures (b as nat) < Pow2(64)
  {
    Pow2Byte(0);
    Pow2Mono(8, 64);
  }

  /** One pass of the loop of `storeBuffer`: the next byte joins the written run. */
  lemma BufferByte(w: BitString, r: BitString, next: BitString, v: seq<Byte>, i: nat)
    requires i < |v|
    requires Wrote(w, r, BitsOf(v[..i])) && Wrote(r, next, ToBits(v[i] as nat, 8))
    ensures Wrote(w, next, BitsOf(v[..i + 1]))
  {
    WroteChain(w, r, next, BitsOf(v[..i]), ToBits(v[i] as nat, 8));
    assert v[..i + 1] == v[..i] + [v[i]];
    BitsOfAppend(v[..i], [v[i]]);
  }

  /**
    The 267 bits `storeAddress` writes for a standard address: the tag `10`,
    the anycast bit `0`, the chain byte, then the 32 hash bytes.
   */
  function AddressBits(chain: Byte, hash: seq<Byte>): (r: seq<bool>)
    requires |hash| >= 32
    ensures |r| == 267
  {
    [true, false] + [false] + ToBits(chain as nat, 8) + BitsOf(hash[..32])
  }

  /** The address bits give back the chain and the hash. */
  lemma AddressBitsDecode(chain: Byte, hash: seq<Byte>)
    requires |hash| >= 32
    ensures var s := AddressBits(chain, hash);
            && s[..3] == [true, false, false]
            && FromBits(s[3..11]) == chain as nat
            && BytesOf(s[11..]) == hash[..32]
  {
    AddressParts(chain, hash);
    ByteBits(chain);
    BytesOfBitsOf(hash[..32]);
  }

  lemma AddressParts(chain: Byte, hash: seq<Byte>)
    requires |hash| >= 32
    ensures var s := AddressBits(chain, hash);
            && s[..3] == [true, false, false]
            && s[3..11] == ToBits(chain as nat, 8)
            && s[11..] == BitsOf(hash[..32])
  {
  }

  /** `BitString_storeAddress`. */
  method StoreAddress(w: BitString, chain: Byte, hash: seq<Byte>) returns (r: BitString)
    requires |hash| >= 32
    requires w.cursor + 267 <= 8 * |w.data|
    ensures Wrote(w, r, AddressBits(chain, hash))
  {
    Pow2Byte(0);
    var r1 := StoreUint(w, 2, 2);
    var r2 := StoreUint(r1, 0, 1);
    var r3 := StoreUint(r2, chain as nat, 8);
    r := StoreBuffer(r3, hash, 32);
    AddressChain(w, r1, r2, r3, r, chain, hash);
  }

  lemma AddressChain(w: BitString, r1: BitString, r2: BitString, r3: BitString, r: BitString,
                      chain: Byte, hash: seq<Byte>)
    requires |hash| >= 32
    requires Wrote(w, r1, ToBits(2, 2)) && Wrote(r1, r2, ToBits(0, 1))
    requires Wrote(r2, r3, ToBits(chain as nat, 8)) && Wrote(r3, r, BitsOf(hash[..32]))
    ensures Wrote(w, r, AddressBits(chain, hash))
  {
    SmallBits();
    WroteChain(w, r1, r2, [true, false], [false]);
    WroteChain(w, r2, r3, [true, false] + [false], ToBits(chain as nat, 8));
    WroteChain(w, r3, r, [true, false] + [false] + ToBits(chain as nat, 8), BitsOf(hash[..32]));
  }

  /** The constant fields of the address encoders. */
  lemma SmallBits()
    ensures ToBits(2, 2) == [true, false] && ToBits(0, 1) == [false] && ToBits(0, 2) == [false, false]
  {
  }

  /** `BitString_storeAddressNull`: the two-bit tag `00` of the empty address. */
  method StoreAddressNull(w: BitString) returns (r: BitString)
    requires w.cursor + 2 <= 8 * |w.data|
    ensures Wrote(w, r, [false, false])
  {
    r := StoreUint(w, 0, 2);
    SmallBits();
  }

  // ---------------------------------------------------------------------
  // BitString_finalize
  // ---------------------------------------------------------------------

  /** `n` zero bits. */
  function Zeros(n: nat): (r: seq<bool>)
    ensures |r| == n && forall i :: 0 <= i < n ==> !r[i]
  {
    seq(n, _ => false)
  }

  /** A completion tag of `n` bits: a one, then zeros; nothing when `n` is 0. */
  function Padding(n: nat): (r: seq<bool>)
    ensures |r| == n
  {
    if n == 0 then [] else [true] + Zeros(n - 1)
  }

  /** The `while (padBytes > 0)` loop: `n` calls of `storeBit(0)`. */
  function StoreZeros(w: BitString, n: nat): (r: BitString)
    requires w.cursor + n <= 8 * |w.data|
    decreases n
    ensures Wrote(w, r, Zeros(n))
  {
    if n == 0 then
      WroteNothing(w);
      w
    else
      var w1 := StoreBit(w, 0);
      StoreBitWrote(w, 0);
      var r := StoreZeros(w1, n - 1);
      WroteChain(w, w1, r, [false], Zeros(n - 1));
      assert [false] + Zeros(n - 1) == Zeros(n);
      r
  }

  /**
    `BitString_finalize` as written: it pads with `cursor % 8` bits, a one
    and then zeros, which is the count of bits already in the last byte
    rather than the count still missing from it.
   */
  function Finalize(w: BitString): (r: BitString)
    requires w.cursor + w.cursor % 8 <= 8 * |w.data|
    ensures Wrote(w, r, Padding(w.cursor % 8))
  {
    var pad := w.cursor % 8;
    if pad > 0 then
      var w1 := StoreBit(w, 1);
      StoreBitWrote(w, 1);
      var r := StoreZeros(w1, pad - 1);
      WroteChain(w, w1, r, [true], Zeros(pad - 1));
      r
    else
      WroteNothing(w);
      w
  }

  /** The as-written padding ends on a byte boundary only from offsets 0 and 4 within a byte. */
  lemma FinalizeAlignedIff(w: BitString)
    requires w.cursor + w.cursor % 8 <= 8 * |w.data|
    ensures Finalize(w).cursor % 8 == 0 <==> w.cursor % 8 == 0 || w.cursor % 8 == 4
  {
    FinalizeCursor(w);
    PadAlign(w.cursor);
  }

  lemma FinalizeCursor(w: BitString)
    requires w.cursor + w.cursor % 8 <= 8 * |w.data|
    ensures Finalize(w).cursor == w.cursor + w.cursor % 8
  {
  }

  lemma PadAlign(c: nat)
    ensures (c + c % 8) % 8 == 0 <==> c % 8 == 0 || c % 8 == 4
  {
  }

  /** One bit written: the as-written finalize adds one more bit, and a second call adds two. */
  lemma FinalizeOneBitLeavesUnaligned(w: BitString)
    requires w.cursor == 1 && |w.data| >= 1
    ensures Finalize(w).cursor == 2
    ensures Finalize(Finalize(w)).cursor == 4
  {
  }

  /** Bits still missing from the last byte. */
  function PadLen(cursor: nat): (r: nat)
    ensures r < 8 && (cursor + r) % 8 == 0
    ensures cursor % 8 == 0 <==> r == 0
  {
    if cursor % 8 == 0 then 0 else 8 - cursor % 8
  }

  /**
    The completion the padding is meant to perform: a one, then zeros up to
    the next byte boundary; nothing when the cursor is already on one.
   */
  function FinalizeToByte(w: BitString): (r: BitString)
    requires w.cursor <= 8 * |w.data|
    ensures Wrote(w, r, Padding(PadLen(w.cursor)))
    ensures r.cursor % 8 == 0
  {
    var pad := PadLen(w.cursor);
    if pad > 0 then
      var w1 := StoreBit(w, 1);
      StoreBitWrote(w, 1);
      var r := StoreZeros(w1, pad - 1);
      WroteChain(w, w1, r, [true], Zeros(pad - 1));
      r
    else
      WroteNothing(w);
      w
  }

  /** Completing an already completed string changes nothing. */
  lemma FinalizeToByteIdempotent(w: BitString)
    requires w.cursor <= 8 * |w.data|
    ensures FinalizeToByte(FinalizeToByte(w)) == FinalizeToByte(w)
  {
  }

  /**
    Drop trailing zeros and the one before them: the inverse of the
    completion, for strings that received a tag.
   */
  function Unpad(s: seq<bool>): seq<bool>
  {
    if |s| == 0 then []
    else if s[|s| - 1] then s[..|s| - 1]
    else Unpad(s[..|s| - 1])
  }

  lemma {:induction false} UnpadTag(s: seq<bool>, n: nat)
    requires n > 0
    ensures Unpad(s + Padding(n)) == s
  {
    var t := s + Padding(n);
    if n == 1 {
      assert t[..|t| - 1] == s;
    } else {
      assert t[..|t| - 1] == s + Padding(n - 1);
      UnpadTag(s, n - 1);
    }
  }

  /**
    The completion tag keeps the bit length recoverable: from the bits of an
    unaligned string after completion, `Unpad` gives back the bits written.
   */
  lemma FinalizeToByteRecoverable(w: BitString)
    requires w.cursor <= 8 * |w.data| && w.cursor % 8 != 0
    ensures Unpad(Written(FinalizeToByte(w))) == Written(w)
  {
    var r := FinalizeToByte(w);
    WroteWritten(w, r, Padding(PadLen(w.cursor)));
    UnpadTag(Written(w), PadLen(w.cursor));
  }
}

=== FILE: bytes.dfy ===
/**
  Byte-level arithmetic shared by the reader and the bit writer: powers of two,
  big- and little-endian decoding of byte strings, and the matching encoders.
  The encoders are the partners of the decoders: each direction is the inverse
  of the other on values that fit the width.
 */
module Bytes {

  /** An octet, `uint8_t`. */
  newtype Byte = x: int | 0 <= x < 256

  function Pow2(n: nat): (r: nat)
    ensures r >= 1
  {
    if n == 0 then 1 else 2 * Pow2(n - 1)
  }

  lemma {:induction false} Pow2Add(a: nat, b: nat)
    ensures Pow2(a + b) == Pow2(a) * Pow2(b)
  {
    if a > 0 {
      Pow2Add(a - 1, b);
      assert Pow2(a + b) == 2 * Pow2(a - 1 + b);
    }
  }

  lemma Pow2Byte(n: nat)
    ensures Pow2(8 * n + 8) == 256 * Pow2(8 * n)
  {
    Pow2Add(8 * n, 8);
  }

  /** `v >> k` on an unsigned integer: `k` halvings, each dropping the low bit. */
  function Shr(v: nat, k: nat): nat
  {
    if k == 0 then v else Shr(v / 2, k - 1)
  }

  /** Shifting right twice is one shift by the sum. */
  lemma {:induction false} ShrAdd(v: nat, a: nat, b: nat)
    ensures Shr(Shr(v, a), b) == Shr(v, a + b)
  {
    if a > 0 {
      ShrAdd(v / 2, a - 1, b);
    }
  }

  /** A right shift by `n` leaves nothing exactly when the value fits in `n` bits. */
  lemma {:induction false} ShrZeroIffFits(v: nat, n: nat)
    ensures Shr(v, n) == 0 <==> v < Pow2(n)
  {
    if n > 0 {
      ShrZeroIffFits(v / 2, n - 1);
    }
  }

  /** Big-endian value of a byte string: the first byte is the most significant. */
  function BeNat(s: seq<Byte>): nat
  {
    if |s| == 0 then 0 else BeNat(s[..|s| - 1]) * 256 + s[|s| - 1] as nat
  }

  /** Little-endian value of a byte string: the first byte is the least significant. */
  function LeNat(s: seq<Byte>): nat
  {
    if |s| == 0 then 0 else s[0] as nat + 256 * LeNat(s[1..])
  }

  lemma {:induction false} BeNatBound(s: seq<Byte>)
    ensures BeNat(s) < Pow2(8 * |s|)
  {
    if |s| > 0 {
      var n := |s| - 1;
      BeNatBound(s[..n]);
      Pow2Byte(n);
      assert BeNat(s[..n]) + 1 <= Pow2(8 * n);
      assert (BeNat(s[..n]) + 1) * 256 <= Pow2(8 * n) * 256;
    }
  }

  lemma {:induction false} LeNatBound(s: seq<Byte>)
    ensures LeNat(s) < Pow2(8 * |s|)
  {
    if |s| > 0 {
      var n := |s| - 1;
      LeNatBound(s[1..]);
      Pow2Byte(n);
      assert LeNat(s[1..]) + 1 <= Pow2(8 * n);
      assert 256 * (LeNat(s[1..]) + 1) <= 256 * Pow2(8 * n);
    }
  }

  /** The `w`-byte big-endian encoding of `v` (its low `8 * w` bits). */
  function BeBytes(v: nat, w: nat): (r: seq<Byte>)
    ensures |r| == w
  {
    if w == 0 then [] else BeBytes(v / 256, w - 1) + [(v % 256) as Byte]
  }

  /** The `w`-byte little-endian encoding of `v` (its low `8 * w` bits). */
  function LeBytes(v: nat, w: nat): (r: seq<Byte>)
    ensures |r| == w
  {
    if w == 0 then [] else [(v % 256) as Byte] + LeBytes(v / 256, w - 1)
  }

  lemma ByteRoundTrip(v: nat)
    requires v < 256
    ensures (v as Byte) as nat == v
  {
  }

  lemma DivByteBound(v: nat, w: nat)
    requires w > 0 && v < Pow2(8 * w)
    ensures v / 256 < Pow2(8 * (w - 1))
  {
    Pow2Byte(w - 1);
  }

  /** Decoding the big-endian encoding gives back every value that fits in `w` bytes. */
  lemma {:induction false} BeRoundTrip(v: nat, w: nat)
    requires v < Pow2(8 * w)
    ensures BeNat(BeBytes(v, w)) == v
  {
    if w > 0 {
      var s := BeBytes(v, w);
      assert s[..w - 1] == BeBytes(v / 256, w - 1);
      DivByteBound(v, w);
      BeRoundTrip(v / 256, w - 1);
      ByteRoundTrip(v % 256);
    } else {
      assert Pow2(0) == 1;
    }
  }

  /** Decoding the little-endian encoding gives back every value that fits in `w` bytes. */
  lemma {:induction false} LeRoundTrip(v: nat, w: nat)
    requires v < Pow2(8 * w)
    ensures LeNat(LeBytes(v, w)) == v
  {
    if w > 0 {
      var s := LeBytes(v, w);
      assert s[1..] == LeBytes(v / 256, w - 1);
      DivByteBound(v, w);
      LeRoundTrip(v / 256, w - 1);
      ByteRoundTrip(v % 256);
    } else {
      assert Pow2(0) == 1;
    }
  }

  /** Re-encoding a decoded byte string gives back the same bytes. */
  lemma {:induction false} BeBytesOfBeNat(s: seq<Byte>)
    ensures BeBytes(BeNat(s), |s|) == s
  {
    if |s| > 0 {
      var n := |s| - 1;
      var v := BeNat(s);
      assert v / 256 == BeNat(s[..n]);
      assert v % 256 == s[n] as nat;
      BeBytesOfBeNat(s[..n]);
      assert s == s[..n] + [s[n]];
    }
  }
}

=== FILE: deserializer.dfy ===
/**
  `transaction_deserialize`: a strict pipeline over the fields of the wire
  format. Each step either succeeds and hands the buffer on, or stops the
  whole parse with the status code the source assigns to that step.
 */
module Deserializer {
  import opened Bytes
  import opened Wrappers
  import opened Reader
  import opened Tx

  datatype Parsed<T> = Next(value: T, rest: Buffer) | Stop(status: ParserStatus)

  /** A failed read stops the parse with `code`. */
  function Expect<T>(r: Read<T>, code: ParserStatus): (p: Parsed<T>)
    ensures p.Next? <==> r.Done?
    ensures p.Next? ==> p.value == r.value && p.rest == r.rest
    ensures p.Stop? ==> p.status == code
  {
    match r
    case Done(v, rest) => Next(v, rest)
    case Failed(_) => Stop(code)
  }

  /** The codes a failed header read can stop with. */
  predicate HeaderCode(s: ParserStatus)
  {
    s == TagParsingError || s == SeqParsingError || s == TimeoutParsingError || TransferCode(s)
  }

  /** The codes a failed value, destination, bounce or send-mode read can stop with. */
  predicate TransferCode(s: ParserStatus)
  {
    s == ValueParsingError || s == ToParsingError || s == BounceParsingError || s == SendModeParsingError
  }

  /** The codes a failed read of the optional parts can stop with. */
  predicate OptionalsCode(s: ParserStatus)
  {
    s == StateInitParsingError || s == PayloadParsingError || s == HintsParsingError
  }

  /** The tag byte, of which only 0x00 is supported. */
  function ParseTag(b: Buffer): (p: Parsed<Byte>)
    requires b.Valid()
    ensures p.Next? <==> Remaining(b) >= 1 && b.data[b.offset] == 0
    ensures p.Next? ==> p.value == 0 && p.rest == Buffer(b.data, b.offset + 1)
    ensures p.Stop? ==> p.status == TagParsingError
  {
    match Expect(ReadU8(b), TagParsingError)
    case Stop(e) => Stop(e)
    case Next(tag, b1) => if tag != 0x00 then Stop(TagParsingError) else Next(tag, b1)
  }

  function ParseHeader(lim: Limits, b: Buffer): (p: Parsed<Header>)
    requires b.Valid()
    ensures p.Next? ==> p.rest.Valid() && p.rest.data == b.data && HeaderFits(lim, p.value)
    ensures Remaining(b) == 0 || b.data[b.offset] != 0 ==> p == Stop(TagParsingError)
    ensures p.Stop? ==> HeaderCode(p.status)
  {
    match ParseTag(b)
    case Stop(e) => Stop(e)
    case Next(tag, b1) =>
    match Expect(ReadU32(b1, BE), SeqParsingError)
    case Stop(e) => Stop(e)
    case Next(seqno, b2) =>
    match Expect(ReadU32(b2, BE), TimeoutParsingError)
    case Stop(e) => Stop(e)
    case Next(timeout, b3) =>
    match ParseTransfer(lim, b3)
    case Stop(e) => Stop(e)
    case Next(t, b4) =>
      Next(Header(tag, seqno, timeout, t.value, t.to, t.bounce, t.sendMode), b4)
  }

  /** The header fields after the timeout: value, destination, bounce flag and send mode. */
  datatype Transfer = Transfer(value: seq<Byte>, to: Address, bounce: Byte, sendMode: Byte)

  function ParseTransfer(lim: Limits, b: Buffer): (p: Parsed<Transfer>)
    requires b.Valid()
    ensures p.Next? ==> && p.rest.Valid() && p.rest.data == b.data
                        && |p.value.value| <= lim.maxValueBytesLen && |p.value.value| < 256
                        && |p.value.to.hash| == HASH_LEN
    ensures Remaining(b) == 0 ==> p == Stop(ValueParsingError)
    ensures Remaining(b) >= 1 && b.data[b.offset] as int > lim.maxValueBytesLen ==> p == Stop(ValueParsingError)
    ensures p.Stop? ==> TransferCode(p.status)
  {
    match Expect(ReadVarUint(b, lim.maxValueBytesLen), ValueParsingError)
    case Stop(e) => Stop(e)
    case Next(value, b1) =>
    match Expect(ReadAddress(b1), ToParsingError)
    case Stop(e) => Stop(e)
    case Next(to, b2) =>
    match Expect(ReadU8(b2), BounceParsingError)
    case Stop(e) => Stop(e)
    case Next(bounce, b3) =>
    match Expect(ReadU8(b3), SendModeParsingError)
    case Stop(e) => Stop(e)
    case Next(sendMode, b4) =>
      Next(Transfer(value, to, bounce, sendMode), b4)
  }

  /**
    A strict boolean flag and, when it is set, a cell reference. A bad flag
    stops with `flagCode`, a short cell reference with `refCode`.
   */
  function ParseOptionalCellRef(b: Buffer, flagCode: ParserStatus, refCode: ParserStatus): (p: Parsed<Option<CellRef>>)
    requires b.Valid()
    ensures p.Next? ==> p.rest.Valid() && p.rest.data == b.data
    ensures p.Next? && p.value.Some? ==> ValidCellRef(p.value.value)
    ensures Remaining(b) == 0 || !IsFlag(b.data[b.offset]) ==> p == Stop(flagCode)
    ensures Remaining(b) >= 1 && b.data[b.offset] == 0 ==> p == Next(None, Buffer(b.data, b.offset + 1))
    ensures Remaining(b) >= 1 && b.data[b.offset] == 1 && Remaining(b) < 1 + 2 + HASH_LEN ==> p == Stop(refCode)
  {
    match Expect(ReadBool(b), flagCode)
    case Stop(e) => Stop(e)
    case Next(has, b1) =>
      if !has then Next(None, b1)
      else
        match Expect(ReadCellRef(b1), refCode)
        case Stop(e) => Stop(e)
        case Next(c, b2) => Next(Some(c), b2)
  }

  /**
    The hints flag and, when it is set, the hints: a hint without a payload is
    refused before any hint byte is read; otherwise a 32-bit type, a 16-bit
    length and a zero-copy view of that many bytes.
   */
  function ParseHints(b: Buffer, hasPayload: bool): (p: Parsed<Option<Hints>>)
    requires b.Valid()
    ensures p.Next? ==> p.rest.Valid() && p.rest.data == b.data
    ensures p.Next? && p.value.Some? ==> && hasPayload
                                         && p.value.value.hintsType < Pow2(32)
                                         && |p.value.value.data| < Pow2(16)
    ensures Remaining(b) == 0 || !IsFlag(b.data[b.offset]) ==> p == Stop(HintsParsingError)
    ensures Remaining(b) >= 1 && b.data[b.offset] == 0 ==> p == Next(None, Buffer(b.data, b.offset + 1))
    ensures Remaining(b) >= 1 && b.data[b.offset] == 1 && !hasPayload ==> p == Stop(HintsParsingError)
    ensures p.Stop? ==> p.status == HintsParsingError
  {
    match Expect(ReadBool(b), HintsParsingError)
    case Stop(e) => Stop(e)
    case Next(has, b1) =>
      if !has then Next(None, b1)
      else if !hasPayload then Stop(HintsParsingError)
      else
      match ParseHintsFields(b1)
      case Stop(e) => Stop(e)
      case Next(hints, b2) => Next(Some(hints), b2)
  }

  /** The hints after a set flag: a 32-bit type, a 16-bit length and that many bytes. */
  function ParseHintsFields(b: Buffer): (p: Parsed<Hints>)
    requires b.Valid()
    ensures p.Next? ==> && p.rest.Valid() && p.rest.data == b.data
                        && p.value.hintsType < Pow2(32) && |p.value.data| < Pow2(16)
    ensures p.Stop? ==> p.status == HintsParsingError
  {
    ReadHintsFields(b)
  }

  /** The three reads behind `ParseHintsFields`, in wire order. */
  function ReadHintsFields(b: Buffer): Parsed<Hints>
    requires b.Valid()
  {
    match Expect(ReadU32(b, BE), HintsParsingError)
    case Stop(e) => Stop(e)
    case Next(hintsType, b1) =>
    match Expect(ReadU16(b1, BE), HintsParsingError)
    case Stop(e) => Stop(e)
    case Next(hintsLen, b2) =>
    match Expect(ReadRef(b2, hintsLen), HintsParsingError)
    case Stop(e) => Stop(e)
    case Next(view, b3) =>
      Next(Hints(hintsType, b2.data[view.start..view.start + view.length]), b3)
  }

  function ParseOptionals(b: Buffer): (p: Parsed<Optionals>)
    requires b.Valid()
    ensures p.Next? ==> p.rest.Valid() && p.rest.data == b.data
    ensures p.Next? ==> OptionalsFit(p.value)
    ensures p.Stop? ==> OptionalsCode(p.status)
    ensures Remaining(b) == 0 || !IsFlag(b.data[b.offset]) ==> p == Stop(StateInitParsingError)
    ensures Remaining(b) >= 2 && b.data[b.offset] == 0 && !IsFlag(b.data[b.offset + 1]) ==>
              p == Stop(PayloadParsingError)
  {
    match ParseOptionalCellRef(b, StateInitParsingError, StateInitParsingError)
    case Stop(e) => Stop(e)
    case Next(stateInit, b1) =>
    // the source reports a short payload cell reference as a state-init error
    match ParseOptionalCellRef(b1, PayloadParsingError, StateInitParsingError)
    case Stop(e) => Stop(e)
    case Next(payload, b2) =>
    match ParseHints(b2, payload.Some?)
    case Stop(e) => Stop(e)
    case Next(hints, b3) => Next(Optionals(stateInit, payload, hints), b3)
  }

  /**
    No state-init, then a set payload flag followed by a cell reference that
    is cut short: the parse stops with the state-init code, not the payload
    code.
   */
  lemma ShortPayloadRefIsStateInitError(b: Buffer)
    requires b.Valid() && 2 <= Remaining(b) < 2 + 2 + HASH_LEN
    requires b.data[b.offset] == 0 && b.data[b.offset + 1] == 1
    ensures ParseOptionals(b) == Stop(StateInitParsingError)
  {
    var b1 := Buffer(b.data, b.offset + 1);
    assert ParseOptionalCellRef(b, StateInitParsingError, StateInitParsingError) == Next(None, b1);
    assert ParseOptionalCellRef(b1, PayloadParsingError, StateInitParsingError) == Stop(StateInitParsingError);
  }

  /** The fields of the record in wire order, before the hints are processed. */
  function ParseFields(lim: Limits, b: Buffer): (p: Parsed<Transaction>)
    requires b.Valid()
    ensures p.Next? ==> p.rest.Valid() && p.rest.data == b.data
    ensures p.Next? ==> !p.value.isBlind && WellFormed(lim, p.value)
    ensures Remaining(b) == 0 || b.data[b.offset] != 0 ==> p == Stop(TagParsingError)
    ensures p.Stop? ==> p.status != ParsingOk
  {
    match ParseHeader(lim, b)
    case Stop(e) => Stop(e)
    case Next(header, b1) =>
    match ParseOptionals(b1)
    case Stop(e) => Stop(e)
    case Next(optionals, b2) =>
      AssembledWellFormed(lim, header, optionals);
      Next(Assemble(header, optionals, false), b2)
  }

  /** A record assembled from parts that fit is well formed. */
  lemma AssembledWellFormed(lim: Limits, h: Header, o: Optionals)
    requires HeaderFits(lim, h) && OptionalsFit(o)
    ensures WellFormed(lim, Assemble(h, o, false))
  {
  }

  /**
    The whole parse. An oversized buffer is refused before any byte is read;
    the hints processor sees the record once every field is in; the parse
    succeeds only if it then sits exactly at the end of the buffer.
   */
  function Deserialize(lim: Limits, processHints: HintsProcessor, b: Buffer): (r: Result<Transaction, ParserStatus>)
    requires b.Valid()
    ensures |b.data| > lim.maxTxLen ==> r == Err(WrongLengthError)
    ensures |b.data| <= lim.maxTxLen && (Remaining(b) == 0 || b.data[b.offset] != 0) ==> r == Err(TagParsingError)
    ensures r.Err? ==> r.error != ParsingOk
    ensures r.Ok? ==> WellFormed(lim, r.value.(isBlind := false))
    ensures r.Ok? ==> processHints(r.value.(isBlind := false)) == Some(r.value.isBlind)
  {
    if |b.data| > lim.maxTxLen then Err(WrongLengthError)
    else
    match ParseFields(lim, b)
    case Stop(e) => Err(e)
    case Next(tx, b2) =>
      match processHints(tx)
      case None => Err(HintsParsingError)
      case Some(isBlind) =>
        if b2.offset == |b2.data| then Ok(tx.(isBlind := isBlind)) else Err(WrongLengthError)
  }

  /**
    A value length byte above `MAX_VALUE_BYTES_LEN`, after a good tag and the
    two counters, fails the whole parse with the value code.
   */
  lemma OversizedValueFails(lim: Limits, processHints: HintsProcessor, b: Buffer)
    requires b.Valid() && |b.data| <= lim.maxTxLen
    requires Remaining(b) >= 10 && b.data[b.offset] == 0
    requires b.data[b.offset + 9] as int > lim.maxValueBytesLen
    ensures Deserialize(lim, processHints, b) == Err(ValueParsingError)
  {
    assert ParseTransfer(lim, Buffer(b.data, b.offset + 9)) == Stop(ValueParsingError);
    HeaderStopsAtTransfer(lim, b);
    FieldsStopFails(lim, processHints, b);
  }

  /** After a good tag and the two counters, a transfer that stops stops the header with its code. */
  lemma HeaderStopsAtTransfer(lim: Limits, b: Buffer)
    requires b.Valid() && Remaining(b) >= 9 && b.data[b.offset] == 0
    requires ParseTransfer(lim, Buffer(b.data, b.offset + 9)).Stop?
    ensures ParseFields(lim, b) == Stop(ParseTransfer(lim, Buffer(b.data, b.offset + 9)).status)
  {
    var b1, b2, b3 := Buffer(b.data, b.offset + 1), Buffer(b.data, b.offset + 5), Buffer(b.data, b.offset + 9);
    assert ParseTag(b) == Next(0, b1);
    assert ReadU32(b1, BE).Done? && ReadU32(b1, BE).rest == b2;
    assert ReadU32(b2, BE).Done? && ReadU32(b2, BE).rest == b3;
    assert ParseHeader(lim, b) == Stop(ParseTransfer(lim, b3).status);
  }

  /**
    Once the header has parsed, a missing or non-boolean state-init flag
    fails the whole parse with the state-init code, and after an absent
    state-init a non-boolean payload flag fails it with the payload code.
   */
  lemma BadOptionalFlagsFail(lim: Limits, processHints: HintsProcessor, b: Buffer)
    requires b.Valid() && |b.data| <= lim.maxTxLen && ParseHeader(lim, b).Next?
    ensures var b1 := ParseHeader(lim, b).rest;
            Remaining(b1) == 0 || !IsFlag(b1.data[b1.offset]) ==>
              Deserialize(lim, processHints, b) == Err(StateInitParsingError)
    ensures var b1 := ParseHeader(lim, b).rest;
            Remaining(b1) >= 2 && b1.data[b1.offset] == 0 && !IsFlag(b1.data[b1.offset + 1]) ==>
              Deserialize(lim, processHints, b) == Err(PayloadParsingError)
  {
    var b1 := ParseHeader(lim, b).rest;
    if ParseOptionals(b1).Stop? {
      FieldsStopInOptionals(lim, b);
      FieldsStopFails(lim, processHints, b);
    }
  }

  /** A parse whose optional parts stop, stops with their code. */
  lemma FieldsStopInOptionals(lim: Limits, b: Buffer)
    requires b.Valid() && ParseHeader(lim, b).Next? && ParseOptionals(ParseHeader(lim, b).rest).Stop?
    ensures ParseFields(lim, b) == Stop(ParseOptionals(ParseHeader(lim, b).rest).status)
  {
  }

  /** Within `MAX_TX_LEN`, a field parse that stops is the result of the whole parse. */
  lemma FieldsStopFails(lim: Limits, processHints: HintsProcessor, b: Buffer)
    requires b.Valid() && |b.data| <= lim.maxTxLen && ParseFields(lim, b).Stop?
    ensures Deserialize(lim, processHints, b) == Err(ParseFields(lim, b).status)
  {
  }
}

=== FILE: reader.dfy ===
/**
  The cursor buffer of `buffer_t`: a byte string, its size, and a read offset.
  Every reader checks the bytes left before it touches them and returns the
  buffer it leaves behind, whether it succeeded or not, so that a reader which
  consumes part of its input before failing shows that in its result.
 */
module Reader {
  import opened Bytes
  import opened Wrappers

  /** Length of the hash part of an address or cell reference. */
  const HASH_LEN: nat := 32

  /** `size_t` is 32 bits wide on the device; sums wrap modulo this value. */
  const SIZE_MODULUS: nat := 0x1_0000_0000

  datatype Endianness = BE | LE

  datatype Buffer = Buffer(data: seq<Byte>, offset: nat) {
    /** The offset never passes the end, and the size fits a `size_t`. */
    predicate Valid() {
      offset <= |data| < SIZE_MODULUS
    }
  }

  /** A serialized address: one chain byte and a 32-byte hash. */
  datatype Address = Address(chain: Byte, hash: seq<Byte>)

  /** A serialized cell reference: a 16-bit depth bound and a 32-byte hash. */
  datatype CellRef = CellRef(maxDepth: nat, hash: seq<Byte>)

  /** A borrowed range `[start, start + length)` of a buffer's bytes. */
  datatype View = View(start: nat, length: nat)

  /**
    Outcome of a read: the value and the buffer after it, or a failure with the
    buffer as the reader left it.
   */
  datatype Read<T> = Done(value: T, rest: Buffer) | Failed(rest: Buffer)

  function Remaining(b: Buffer): (r: nat)
    requires b.Valid()
    ensures r <= |b.data| && b.offset + r == |b.data|
  {
    |b.data| - b.offset
  }

  predicate CanRead(b: Buffer, n: nat)
    requires b.Valid()
  {
    Remaining(b) >= n
  }

  lemma CanReadIff(b: Buffer, n: nat)
    requires b.Valid()
    ensures CanRead(b, n) <==> |b.data| - b.offset >= n
  {
  }

  function SeekSet(b: Buffer, k: nat): (r: Read<()>)
    requires b.Valid()
    ensures r.rest.Valid() && r.rest.data == b.data
    ensures r.Done? <==> k <= |b.data|
    ensures r.Done? ==> r.rest.offset == k
    ensures r.Failed? ==> r.rest == b
  {
    if k > |b.data| then Failed(b) else Done((), b.(offset := k))
  }

  /** The source tests for wrap-around of the `size_t` sum before the bound. */
  function SeekCur(b: Buffer, k: nat): (r: Read<()>)
    requires b.Valid() && k < SIZE_MODULUS
    ensures r.rest.Valid() && r.rest.data == b.data
    ensures r.Done? <==> b.offset + k <= |b.data|
    ensures r.Done? ==> r.rest.offset == b.offset + k
    ensures r.Failed? ==> r.rest == b
  {
    // the `size_t` sum wraps; both operands are below the modulus, so it wraps at most once
    var sum := if b.offset + k < SIZE_MODULUS then b.offset + k else b.offset + k - SIZE_MODULUS;
    if sum < b.offset || sum > |b.data| then Failed(b) else Done((), b.(offset := sum))
  }

  function SeekEnd(b: Buffer, k: nat): (r: Read<()>)
    requires b.Valid()
    ensures r.rest.Valid() && r.rest.data == b.data
    ensures r.Done? <==> k <= |b.data|
    ensures r.Done? ==> r.rest.offset + k == |b.data|
    ensures r.Failed? ==> r.rest == b
  {
    if k > |b.data| then Failed(b) else Done((), b.(offset := |b.data| - k))
  }

  /** Value of a byte string in the given byte order. */
  function Decode(s: seq<Byte>, e: Endianness): nat
  {
    if e == BE then BeNat(s) else LeNat(s)
  }

  /** Bytes of the `w`-byte encoding of `v` in the given byte order. */
  function Encode(v: nat, w: nat, e: Endianness): (r: seq<Byte>)
    ensures |r| == w
  {
    if e == BE then BeBytes(v, w) else LeBytes(v, w)
  }

  function ReadU8(b: Buffer): (r: Read<Byte>)
    requires b.Valid()
    ensures r.rest.Valid() && r.rest.data == b.data
    ensures r.Done? <==> Remaining(b) >= 1
    ensures r.Done? ==> r.value == b.data[b.offset] && r.rest.offset == b.offset + 1
    ensures r.Failed? ==> r.rest == b
  {
    if !CanRead(b, 1) then Failed(b)
    else Done(b.data[b.offset], SeekCur(b, 1).rest)
  }

  /**
    The `w`-byte unsigned reads (`w` is 2, 4, 6 or 8 in the source): decode the
    next `w` bytes in the requested order and advance past them.
   */
  function ReadFixed(b: Buffer, w: nat, e: Endianness): (r: Read<nat>)
    requires b.Valid() && w <= 8
    ensures r.rest.Valid() && r.rest.data == b.data
    ensures r.Done? <==> Remaining(b) >= w
    ensures r.Done? ==> && r.rest.offset == b.offset + w
                        && r.value == Decode(b.data[b.offset..b.offset + w], e)
                        && r.value < Pow2(8 * w)
    ensures r.Failed? ==> r.rest == b
  {
    if !CanRead(b, w) then Failed(b)
    else
      var s := b.data[b.offset..b.offset + w];
      BeNatBound(s);
      LeNatBound(s);
      Done(Decode(s, e), SeekCur(b, w).rest)
  }

  function ReadU16(b: Buffer, e: Endianness): Read<nat>
    requires b.Valid()
  {
    ReadFixed(b, 2, e)
  }

  function ReadU32(b: Buffer, e: Endianness): Read<nat>
    requires b.Valid()
  {
    ReadFixed(b, 4, e)
  }

  function ReadU48(b: Buffer, e: Endianness): (r: Read<nat>)
    requires b.Valid()
    ensures r.Failed? <==> Remaining(b) < 6
    ensures r.Done? ==> && r.value == Decode(b.data[b.offset..b.offset + 6], e)
                        && r.value < Pow2(48) && r.rest.offset == b.offset + 6
    ensures r.Failed? ==> r.rest == b
  {
    ReadFixed(b, 6, e)
  }

  function ReadU64(b: Buffer, e: Endianness): Read<nat>
    requires b.Valid()
  {
    ReadFixed(b, 8, e)
  }

  /** The two bytes a strict boolean may hold. */
  predicate IsFlag(x: Byte)
  {
    x == 0x00 || x == 0x01
  }

  /** Reads one byte that must be exactly 0x00 or 0x01. */
  function ReadBool(b: Buffer): (r: Read<bool>)
    requires b.Valid()
    ensures r.rest.Valid() && r.rest.data == b.data
    ensures r.Done? <==> Remaining(b) >= 1 && IsFlag(b.data[b.offset])
    ensures r.Done? ==> r.value == (b.data[b.offset] == 1) && r.rest.offset == b.offset + 1
    ensures r.Failed? ==> r.rest == b
  {
    if !CanRead(b, 1) then Failed(b)
    else
      var v := b.data[b.offset];
      if v != 0x00 && v != 0x01 then Failed(b)
      else Done(v == 0x01, SeekCur(b, 1).rest)
  }

  /**
    Reads a BIP32 path of `n` components. Decoding the components is delegated
    to `pathRead`, which sees the remaining bytes; the offset then moves by
    `4 * n` through a seek whose own failure the source ignores.
   */
  function ReadBip32Path(b: Buffer, n: nat, pathRead: (seq<Byte>, nat) -> Option<seq<nat>>): (r: Read<seq<nat>>)
    requires b.Valid() && n < 256
    ensures r.rest.Valid() && r.rest.data == b.data
    ensures r.Done? <==> pathRead(b.data[b.offset..], n).Some?
    ensures r.Done? ==> r.value == pathRead(b.data[b.offset..], n).value
    ensures r.Done? && b.offset + 4 * n <= |b.data| ==> r.rest.offset == b.offset + 4 * n
    ensures r.Failed? || b.offset + 4 * n > |b.data| ==> r.rest == b
  {
    match pathRead(b.data[b.offset..], n)
    case None => Failed(b)
    case Some(path) => Done(path, SeekCur(b, 4 * n).rest)
  }

  /** Copies every remaining byte out, without moving the offset. */
  function Copy(b: Buffer, outLen: nat): (r: Option<seq<Byte>>)
    requires b.Valid()
    ensures r.Some? <==> Remaining(b) <= outLen
    ensures r.Some? ==> r.value == b.data[b.offset..] && |r.value| <= outLen
  {
    if Remaining(b) > outLen then None else Some(b.data[b.offset..])
  }

  /** Copies every remaining byte out and moves the offset to the end. */
  function Move(b: Buffer, outLen: nat): (r: Read<seq<Byte>>)
    requires b.Valid()
    ensures r.rest.Valid() && r.rest.data == b.data
    ensures r.Done? <==> Remaining(b) <= outLen
    ensures r.Done? ==> r.value == b.data[b.offset..] && Remaining(r.rest) == 0
    ensures r.Failed? ==> r.rest == b
  {
    match Copy(b, outLen)
    case None => Failed(b)
    case Some(bytes) => Done(bytes, SeekEnd(b, 0).rest)
  }

  /** `Move` hands back what `Copy` copies, and succeeds exactly when `Copy` does. */
  lemma MoveCopies(b: Buffer, outLen: nat)
    requires b.Valid()
    ensures Move(b, outLen).Done? <==> Copy(b, outLen).Some?
    ensures Move(b, outLen).Done? ==> Copy(b, outLen) == Some(Move(b, outLen).value)
  {
  }

  /** Zero-copy read: the result names a range of the buffer instead of copying it. */
  function ReadRef(b: Buffer, n: nat): (r: Read<View>)
    requires b.Valid()
    ensures r.rest.Valid() && r.rest.data == b.data
    ensures r.Done? <==> Remaining(b) >= n
    ensures r.Done? ==> && r.value == View(b.offset, n)
                        && r.value.start + r.value.length <= |b.data|
                        && r.rest.offset == b.offset + n
    ensures r.Failed? ==> r.rest == b
  {
    if !CanRead(b, n) then Failed(b)
    else Done(View(b.offset, n), SeekCur(b, n).rest)
  }

  /** Copying read of exactly `n` bytes. */
  function ReadBuffer(b: Buffer, n: nat): (r: Read<seq<Byte>>)
    requires b.Valid()
    ensures r.rest.Valid() && r.rest.data == b.data
    ensures r.Done? <==> Remaining(b) >= n
    ensures r.Done? ==> && |r.value| == n
                        && r.value == b.data[b.offset..b.offset + n]
                        && r.rest.offset == b.offset + n
    ensures r.Failed? ==> r.rest == b
  {
    if !CanRead(b, n) then Failed(b)
    else Done(b.data[b.offset..b.offset + n], SeekCur(b, n).rest)
  }

  /**
    A length byte `L` followed by `L` bytes, with `L` at most `outLen`. The
    length byte stays consumed when the bound or the body read fails.
   */
  function ReadVarUint(b: Buffer, outLen: nat): (r: Read<seq<Byte>>)
    requires b.Valid()
    ensures r.rest.Valid() && r.rest.data == b.data
    ensures Remaining(b) == 0 ==> r == Failed(b)
    ensures Remaining(b) >= 1 ==>
              var size := b.data[b.offset] as nat;
              && (r.Done? <==> size <= outLen && Remaining(b) >= 1 + size)
              && (r.Done? ==> && |r.value| == size < 256
                              && r.value == b.data[b.offset + 1..b.offset + 1 + size]
                              && r.rest.offset == b.offset + 1 + size)
              && (r.Failed? ==> r.rest.offset == b.offset + 1)
  {
    match ReadU8(b)
    case Failed(rest) => Failed(rest)
    case Done(size, b1) =>
      if size as nat > outLen then Failed(b1)
      else ReadBuffer(b1, size as nat)
  }

  /**
    The 33-byte address: the chain byte, then the hash. The chain byte stays
    consumed when the hash read fails.
   */
  function ReadAddress(b: Buffer): (r: Read<Address>)
    requires b.Valid()
    ensures r.rest.Valid() && r.rest.data == b.data
    ensures r.Done? <==> Remaining(b) >= 1 + HASH_LEN
    ensures r.Done? ==> && r.value.chain == b.data[b.offset]
                        && r.value.hash == b.data[b.offset + 1..b.offset + 1 + HASH_LEN]
                        && r.rest.offset == b.offset + 1 + HASH_LEN
    ensures r.Failed? && Remaining(b) >= 1 ==> r.rest.offset == b.offset + 1
    ensures r.Failed? && Remaining(b) == 0 ==> r.rest == b
  {
    match ReadU8(b)
    case Failed(rest) => Failed(rest)
    case Done(chain, b1) =>
      match ReadBuffer(b1, HASH_LEN)
      case Failed(rest) => Failed(rest)
      case Done(hash, b2) => Done(Address(chain, hash), b2)
  }

  /**
    The 34-byte cell reference: a big-endian 16-bit depth, then the hash. The
    depth stays consumed when the hash read fails.
   */
  function ReadCellRef(b: Buffer): (r: Read<CellRef>)
    requires b.Valid()
    ensures r.rest.Valid() && r.rest.data == b.data
    ensures r.Done? <==> Remaining(b) >= 2 + HASH_LEN
    ensures r.Done? ==> && r.value.maxDepth == BeNat(b.data[b.offset..b.offset + 2])
                        && r.value.hash == b.data[b.offset + 2..b.offset + 2 + HASH_LEN]
                        && r.value.maxDepth < Pow2(16)
                        && r.rest.offset == b.offset + 2 + HASH_LEN
    ensures r.Failed? && Remaining(b) >= 2 ==> r.rest.offset == b.offset + 2
    ensures r.Failed? && Remaining(b) < 2 ==> r.rest == b
  {
    match ReadU16(b, BE)
    case Failed(rest) => Failed(rest)
    case Done(depth, b1) =>
      match ReadBuffer(b1, HASH_LEN)
      case Failed(rest) => Failed(rest)
      case Done(hash, b2) => Done(CellRef(depth, hash), b2)
  }

  // Encoders and round trips. `Compatible(x, y)` says one byte string is a
  // prefix of the other, which covers both a truncated input (the buffer ends
  // inside the encoding) and an input with more bytes after the encoding.
  // `Agrees(d, o, p)` is the same statement about the bytes of `d` from offset
  // `o` on, written without slicing `d`.

  predicate Compatible(x: seq<Byte>, y: seq<Byte>)
  {
    x <= y || y <= x
  }

  predicate Agrees(d: seq<Byte>, o: nat, p: seq<Byte>)
    decreases |p|
  {
    |p| == 0 || o >= |d| || (d[o] == p[0] && Agrees(d, o + 1, p[1..]))
  }

  lemma {:induction false} AgreesIsCompatible(d: seq<Byte>, o: nat, p: seq<Byte>)
    requires o <= |d|
    ensures Agrees(d, o, p) <==> Compatible(d[o..], p)
    decreases |p|
  {
    if |p| > 0 && o < |d| {
      AgreesIsCompatible(d, o + 1, p[1..]);
      assert d[o..] == [d[o]] + d[o + 1..];
      assert p == [p[0]] + p[1..];
    }
  }

  /** Where the bytes after offset `o` agree with `P`, they are `P` or a prefix of it. */
  lemma {:induction false} AgreesSlice(d: seq<Byte>, o: nat, p: seq<Byte>)
    requires o <= |d| && Agrees(d, o, p)
    ensures o + |p| <= |d| ==> d[o..o + |p|] == p
    ensures o + |p| > |d| ==> d[o..] == p[..|d| - o]
    decreases |p|
  {
    if |p| > 0 && o < |d| {
      AgreesSlice(d, o + 1, p[1..]);
      if o + |p| <= |d| {
        assert d[o..o + |p|] == [d[o]] + d[o + 1..o + 1 + |p[1..]|];
        assert p == [p[0]] + p[1..];
      } else {
        assert d[o..] == [d[o]] + d[o + 1..];
        assert p[..|d| - o] == [p[0]] + p[1..][..|d| - (o + 1)];
      }
    }
  }

  /** Agreement with `P + R` gives agreement with `P`, and with `R` after `P`. */
  lemma {:induction false} Advance(d: seq<Byte>, o: nat, p: seq<Byte>, r: seq<Byte>)
    requires o <= |d| && Agrees(d, o, p + r)
    ensures Agrees(d, o, p)
    ensures o + |p| <= |d| ==> Agrees(d, o + |p|, r)
    decreases |p|
  {
    if |p| == 0 {
      assert p + r == r;
    } else if o < |d| {
      assert (p + r)[0] == p[0];
      assert (p + r)[1..] == p[1..] + r;
      Advance(d, o + 1, p[1..], r);
    }
  }

  /** Agreement with `P + R`, where the input holds all of `P`, gives agreement with `R` after it. */
  lemma Skip(d: seq<Byte>, o: nat, p: seq<Byte>, r: seq<Byte>)
    requires o + |p| <= |d| && Agrees(d, o, p + r)
    ensures Agrees(d, o + |p|, r)
  {
    Advance(d, o, p, r);
  }

  function EncodeBool(v: bool): seq<Byte>
  {
    if v then [1] else [0]
  }

  function EncodeVarUint(v: seq<Byte>): (r: seq<Byte>)
    requires |v| < 256
    ensures |r| == 1 + |v|
  {
    [|v| as Byte] + v
  }

  function EncodeAddress(a: Address): (r: seq<Byte>)
    ensures |r| == 1 + |a.hash|
  {
    [a.chain] + a.hash
  }

  function EncodeCellRef(c: CellRef): (r: seq<Byte>)
    ensures |r| == 2 + |c.hash|
  {
    BeBytes(c.maxDepth, 2) + c.hash
  }

  lemma U8RoundTrip(d: seq<Byte>, o: nat, v: Byte)
    requires Buffer(d, o).Valid() && Agrees(d, o, [v])
    ensures var r := ReadU8(Buffer(d, o));
            && (r.Done? <==> o + 1 <= |d|)
            && (r.Done? ==> r.value == v && r.rest == Buffer(d, o + 1))
  {
    AgreesSlice(d, o, [v]);
  }

  /** Reading `w` bytes where the encoding of `v` sits gives back `v`. */
  lemma FixedRoundTrip(d: seq<Byte>, o: nat, v: nat, w: nat, e: Endianness)
    requires Buffer(d, o).Valid() && w <= 8 && v < Pow2(8 * w)
    requires Agrees(d, o, Encode(v, w, e))
    ensures var r := ReadFixed(Buffer(d, o), w, e);
            && (r.Done? <==> o + w <= |d|)
            && (r.Done? ==> r.value == v && r.rest == Buffer(d, o + w))
  {
    if o + w <= |d| {
      AgreesSlice(d, o, Encode(v, w, e));
      DecodeEncode(v, w, e);
    }
  }

  /** Decoding is the inverse of encoding on values that fit the width. */
  lemma DecodeEncode(v: nat, w: nat, e: Endianness)
    requires v < Pow2(8 * w)
    ensures Decode(Encode(v, w, e), e) == v
  {
    if e == BE { BeRoundTrip(v, w); } else { LeRoundTrip(v, w); }
  }

  lemma BoolRoundTrip(d: seq<Byte>, o: nat, v: bool)
    requires Buffer(d, o).Valid() && Agrees(d, o, EncodeBool(v))
    ensures var r := ReadBool(Buffer(d, o));
            && (r.Done? <==> o + 1 <= |d|)
            && (r.Done? ==> r.value == v && r.rest == Buffer(d, o + 1))
  {
    AgreesSlice(d, o, EncodeBool(v));
  }

  lemma VarUintRoundTrip(d: seq<Byte>, o: nat, v: seq<Byte>, outLen: nat)
    requires Buffer(d, o).Valid() && |v| < 256 && |v| <= outLen
    requires Agrees(d, o, EncodeVarUint(v))
    ensures var r := ReadVarUint(Buffer(d, o), outLen);
            && (r.Done? <==> o + 1 + |v| <= |d|)
            && (r.Done? ==> r.value == v && r.rest == Buffer(d, o + 1 + |v|))
  {
    var p := EncodeVarUint(v);
    AgreesSlice(d, o, p);
    if o < |d| {
      assert d[o] == p[0];
      ByteRoundTrip(|v|);
    }
    if o + |p| <= |d| {
      assert d[o + 1..o + 1 + |v|] == d[o..o + |p|][1..] == v;
    }
  }

  lemma AddressRoundTrip(d: seq<Byte>, o: nat, a: Address)
    requires Buffer(d, o).Valid() && |a.hash| == HASH_LEN
    requires Agrees(d, o, EncodeAddress(a))
    ensures var r := ReadAddress(Buffer(d, o));
            && (r.Done? <==> o + 1 + HASH_LEN <= |d|)
            && (r.Done? ==> r.value == a && r.rest == Buffer(d, o + 1 + HASH_LEN))
  {
    var p := EncodeAddress(a);
    AgreesSlice(d, o, p);
    if o + |p| <= |d| {
      assert d[o + 1..o + 1 + HASH_LEN] == d[o..o + |p|][1..] == a.hash;
    }
  }

  lemma CellRefRoundTrip(d: seq<Byte>, o: nat, c: CellRef)
    requires Buffer(d, o).Valid() && |c.hash| == HASH_LEN && c.maxDepth < Pow2(16)
    requires Agrees(d, o, EncodeCellRef(c))
    ensures var r := ReadCellRef(Buffer(d, o));
            && (r.Done? <==> o + 2 + HASH_LEN <= |d|)
            && (r.Done? ==> r.value == c && r.rest == Buffer(d, o + 2 + HASH_LEN))
  {
    if o + 2 + HASH_LEN <= |d| {
      CellRefBytes(d, o, c);
      BeRoundTrip(c.maxDepth, 2);
    }
  }

  /** Where a cell reference's encoding sits in full, its depth and hash bytes sit in place. */
  lemma CellRefBytes(d: seq<Byte>, o: nat, c: CellRef)
    requires o + 2 + |c.hash| <= |d| && Agrees(d, o, EncodeCellRef(c))
    ensures d[o..o + 2] == BeBytes(c.maxDepth, 2)
    ensures d[o + 2..o + 2 + |c.hash|] == c.hash
  {
    var p := EncodeCellRef(c);
    AgreesSlice(d, o, p);
    assert d[o..o + 2] == d[o..o + |p|][..2];
    assert d[o + 2..o + 2 + |c.hash|] == d[o..o + |p|][2..];
  }

  // The other direction: a read that succeeds has consumed exactly the
  // encoding of the value it returns. `Consumed(b, rest, p)` says that going
  // from `b` to `rest` took the bytes `p`, and nothing else changed.

  predicate Consumed(b: Buffer, rest: Buffer, p: seq<Byte>)
  {
    && rest.data == b.data
    && rest.offset == b.offset + |p| <= |b.data|
    && b.data[b.offset..rest.offset] == p
  }

  /** Two reads in a row consume the concatenation of what each consumed. */
  lemma ConsumedChain(a: Buffer, b: Buffer, c: Buffer, p: seq<Byte>, q: seq<Byte>)
    requires Consumed(a, b, p) && Consumed(b, c, q)
    ensures Consumed(a, c, p + q)
  {
    assert a.data[a.offset..c.offset] == a.data[a.offset..b.offset] + a.data[b.offset..c.offset];
  }

  lemma U8Consumed(b: Buffer)
    requires b.Valid() && ReadU8(b).Done?
    ensures Consumed(b, ReadU8(b).rest, [ReadU8(b).value])
  {
  }

  lemma BeFixedConsumed(b: Buffer, w: nat)
    requires b.Valid() && w <= 8 && ReadFixed(b, w, BE).Done?
    ensures Consumed(b, ReadFixed(b, w, BE).rest, BeBytes(ReadFixed(b, w, BE).value, w))
  {
    BeBytesOfBeNat(b.data[b.offset..b.offset + w]);
  }

  lemma BoolConsumed(b: Buffer)
    requires b.Valid() && ReadBool(b).Done?
    ensures Consumed(b, ReadBool(b).rest, EncodeBool(ReadBool(b).value))
  {
  }

  lemma VarUintConsumed(b: Buffer, outLen: nat)
    requires b.Valid() && ReadVarUint(b, outLen).Done?
    ensures var r := ReadVarUint(b, outLen); Consumed(b, r.rest, EncodeVarUint(r.value))
  {
    var r := ReadVarUint(b, outLen);
    var o := b.offset;
    assert b.data[o..r.rest.offset] == [b.data[o]] + b.data[o + 1..r.rest.offset];
  }

  lemma AddressConsumed(b: Buffer)
    requires b.Valid() && ReadAddress(b).Done?
    ensures Consumed(b, ReadAddress(b).rest, EncodeAddress(ReadAddress(b).value))
  {
    var o := b.offset;
    assert b.data[o..o + 1 + HASH_LEN] == [b.data[o]] + b.data[o + 1..o + 1 + HASH_LEN];
  }

  lemma CellRefConsumed(b: Buffer)
    requires b.Valid() && ReadCellRef(b).Done?
    ensures Consumed(b, ReadCellRef(b).rest, EncodeCellRef(ReadCellRef(b).value))
  {
    var o := b.offset;
    BeBytesOfBeNat(b.data[o..o + 2]);
    assert b.data[o..o + 2 + HASH_LEN] == b.data[o..o + 2] + b.data[o + 2..o + 2 + HASH_LEN];
  }

  /** A view read consumes the bytes it names. */
  lemma RefConsumed(b: Buffer, n: nat)
    requires b.Valid() && ReadRef(b, n).Done?
    ensures var v := ReadRef(b, n).value;
            Consumed(b, ReadRef(b, n).rest, b.data[v.start..v.start + v.length])
  {
  }
}

=== FILE: sign_tx.dfy ===
/**
  The signing session: the per-packet step of the sign-transaction command.
  The first packet carries the BIP32 path and opens a session; the following
  packets are appended to a bounded accumulator; the last one triggers the
  parse, the blind-signing check and the hash.
 */
module SignTx {
  import opened Bytes
  import opened Wrappers
  import opened Reader
  import opened Tx
  import opened Deserializer
  import opened WireFormat

  /**
    `req_type`. `OtherRequest` stands for every value other than
    `CONFIRM_TRANSACTION`, the all-zero one included.
   */
  datatype RequestType = OtherRequest | ConfirmTransaction

  /** `state`. `StateOther` stands for the values set outside this handler. */
  datatype SessionState = StateNone | StateParsed | StateOther

  /**
    The global signing context. `rawTx` is the whole fixed-size accumulator;
    only its first `rawTxLen` bytes are the transaction received so far.
   */
  datatype Context = Context(
    reqType: RequestType,
    state: SessionState,
    bip32PathLen: nat,
    bip32Path: seq<nat>,
    rawTx: seq<Byte>,
    rawTxLen: nat,
    transaction: Option<Transaction>,
    hash: Option<seq<Byte>>
  )

  /** The status words the handler sends; `Review` hands the session to the review screen. */
  datatype StatusWord =
    | SwOk
    | SwWrongDataLength
    | SwBadBip32Path
    | SwBadState
    | SwWrongTxLength
    | SwTxParsingFail
    | SwBlindSigningDisabled
    | Review

  datatype Outcome = Outcome(ctx: Context, sw: StatusWord)

  /**
    What the handler calls but this model does not define: the path decoder,
    the path policy, the hints processor, the hasher (which sees the parsed
    record and the bytes received), and the stored setting that allows blind
    signing.
   */
  datatype Host = Host(
    pathRead: (seq<Byte>, nat) -> Option<seq<nat>>,
    pathAccepted: seq<nat> -> bool,
    processHints: HintsProcessor,
    hashTx: (Transaction, seq<Byte>) -> Option<seq<Byte>>,
    blindSigningEnabled: bool
  )

  /** The accumulator's size fits a `size_t`, so the parser can take it as a buffer. */
  predicate LimitsFit(lim: Limits)
  {
    lim.maxTransactionLen < SIZE_MODULUS
  }

  /** The accumulator has its declared size and the received length never exceeds it. */
  predicate Inv(lim: Limits, ctx: Context)
  {
    && LimitsFit(lim)
    && |ctx.rawTx| == lim.maxTransactionLen
    && ctx.rawTxLen <= lim.maxTransactionLen
  }

  function ZeroBytes(n: nat): (r: seq<Byte>)
    ensures |r| == n && forall i :: 0 <= i < n ==> r[i] == 0
  {
    seq(n, i => 0)
  }

  /** The context after it is wiped: no session, nothing received, nothing parsed. */
  function Reset(lim: Limits): (r: Context)
    requires LimitsFit(lim)
    ensures Inv(lim, r) && r.rawTxLen == 0 && r.reqType != ConfirmTransaction
    ensures forall i :: 0 <= i < |r.rawTx| ==> r.rawTx[i] == 0
  {
    Context(OtherRequest, StateNone, 0, [], ZeroBytes(lim.maxTransactionLen), 0, None, None)
  }

  /**
    The first packet: wipe the context, read the path length and the path,
    and open a session only if the policy accepts the path.
   */
  function Begin(lim: Limits, host: Host, packet: seq<Byte>): (r: Outcome)
    requires LimitsFit(lim) && |packet| < SIZE_MODULUS
    ensures Inv(lim, r.ctx) && r.ctx.rawTxLen == 0
    ensures r.sw == SwOk || r.sw == SwWrongDataLength || r.sw == SwBadBip32Path
    ensures r.sw == SwWrongDataLength <==>
              |packet| == 0 || host.pathRead(packet[1..], packet[0] as nat).None?
    ensures r.sw == SwOk <==>
              && |packet| > 0
              && host.pathRead(packet[1..], packet[0] as nat).Some?
              && host.pathAccepted(host.pathRead(packet[1..], packet[0] as nat).value)
    ensures r.sw == SwOk ==> && r.ctx.reqType == ConfirmTransaction
                             && r.ctx.state == StateNone
                             && r.ctx.bip32PathLen == packet[0] as nat
                             && r.ctx.bip32Path == host.pathRead(packet[1..], packet[0] as nat).value
    ensures r.sw != SwOk ==> r.ctx.reqType != ConfirmTransaction
    ensures r.ctx.state == StateNone && r.ctx.rawTx == Reset(lim).rawTx
    ensures r.ctx.transaction.None? && r.ctx.hash.None?
  {
    var z := Reset(lim);
    match ReadU8(Buffer(packet, 0))
    case Failed(_) => Outcome(z, SwWrongDataLength)
    case Done(n, b1) =>
      match ReadBip32Path(b1, n as nat, host.pathRead)
      case Failed(_) => Outcome(z.(bip32PathLen := n as nat), SwWrongDataLength)
      case Done(path, _) =>
        var c := z.(bip32PathLen := n as nat, bip32Path := path);
        if !host.pathAccepted(c.bip32Path) then Outcome(c, SwBadBip32Path)
        else Outcome(c.(reqType := ConfirmTransaction, state := StateNone), SwOk)
  }

  /**
    The last packet: parse the accumulated bytes from offset 0, refuse a blind
    transaction unless blind signing is enabled, hash, and mark the context
    parsed. No failure changes the request type or the accumulator.
   */
  function Finish(lim: Limits, host: Host, c: Context): (r: Outcome)
    requires Inv(lim, c)
    ensures Inv(lim, r.ctx)
    ensures && r.ctx.reqType == c.reqType && r.ctx.rawTx == c.rawTx
            && r.ctx.rawTxLen == c.rawTxLen && r.ctx.bip32Path == c.bip32Path
    ensures r.sw == Review || r.sw == SwTxParsingFail || r.sw == SwBlindSigningDisabled
    ensures var p := Deserialize(lim, host.processHints, Buffer(c.rawTx[..c.rawTxLen], 0));
            && (p.Err? ==> r == Outcome(c, SwTxParsingFail))
            && (p.Ok? ==> r.ctx.transaction == Some(p.value))
            && (r.sw == SwBlindSigningDisabled <==>
                  p.Ok? && p.value.isBlind && !host.blindSigningEnabled)
            && (r.sw == Review <==>
                  && p.Ok?
                  && !(p.value.isBlind && !host.blindSigningEnabled)
                  && host.hashTx(p.value, c.rawTx[..c.rawTxLen]).Some?)
            && (r.sw == Review ==> r.ctx.hash == host.hashTx(p.value, c.rawTx[..c.rawTxLen]))
    ensures r.sw == Review ==> r.ctx.state == StateParsed && r.ctx.hash.Some?
    ensures r.sw != Review ==> r.ctx.state == c.state && r.ctx.hash == c.hash
  {
    match Deserialize(lim, host.processHints, Buffer(c.rawTx[..c.rawTxLen], 0))
    case Err(_) => Outcome(c, SwTxParsingFail)
    case Ok(tx) =>
      var c1 := c.(transaction := Some(tx));
      if tx.isBlind && !host.blindSigningEnabled then Outcome(c1, SwBlindSigningDisabled)
      else
        match host.hashTx(tx, c.rawTx[..c.rawTxLen])
        case None => Outcome(c1, SwTxParsingFail)
        case Some(h) => Outcome(c1.(hash := Some(h), state := StateParsed), Review)
  }

  /**
    The context with `packet` written into the accumulator right after the
    bytes already received: the received bytes are the old ones followed by
    the packet, the unused tail and every other field are as they were.
   */
  function Appended(lim: Limits, ctx: Context, packet: seq<Byte>): (c: Context)
    requires Inv(lim, ctx) && ctx.rawTxLen + |packet| <= lim.maxTransactionLen
    ensures Inv(lim, c)
    ensures c.rawTxLen == ctx.rawTxLen + |packet|
    ensures c.rawTx[..c.rawTxLen] == ctx.rawTx[..ctx.rawTxLen] + packet
    ensures c.rawTx[c.rawTxLen..] == ctx.rawTx[c.rawTxLen..]
    ensures c.(rawTx := ctx.rawTx, rawTxLen := ctx.rawTxLen) == ctx
  {
    var n := ctx.rawTxLen;
    var c := ctx.(rawTx := ctx.rawTx[..n] + packet + ctx.rawTx[n + |packet|..], rawTxLen := n + |packet|);
    assert c.rawTx[..c.rawTxLen] == ctx.rawTx[..n] + packet;
    assert c.rawTx[c.rawTxLen..] == ctx.rawTx[c.rawTxLen..];
    c
  }

  /**
    A continuation packet: refused outside a session, refused when it would
    overflow the accumulator (a total exactly at the cap is accepted),
    otherwise appended after the bytes already received; with more to come
    that is all, and the last packet goes on to `Finish`.
   */
  function Append(lim: Limits, host: Host, ctx: Context, packet: seq<Byte>, more: bool): (r: Outcome)
    requires Inv(lim, ctx) && |packet| < SIZE_MODULUS
    ensures Inv(lim, r.ctx)
    ensures r.sw == SwBadState <==> ctx.reqType != ConfirmTransaction
    ensures ctx.reqType != ConfirmTransaction ==> r == Outcome(ctx, SwBadState)
    ensures ctx.reqType == ConfirmTransaction ==>
              (r.sw == SwWrongTxLength <==> ctx.rawTxLen + |packet| > lim.maxTransactionLen)
    ensures r.sw == SwBadState || r.sw == SwWrongTxLength ==> r.ctx == ctx
    ensures ctx.reqType == ConfirmTransaction && ctx.rawTxLen + |packet| <= lim.maxTransactionLen ==>
              r == if more then Outcome(Appended(lim, ctx, packet), SwOk)
                   else Finish(lim, host, Appended(lim, ctx, packet))
    ensures && r.ctx.reqType == ctx.reqType && r.ctx.bip32Path == ctx.bip32Path
            && r.ctx.rawTxLen >= ctx.rawTxLen
    ensures r.sw != SwBadState && r.sw != SwWrongTxLength ==>
              && r.ctx.rawTxLen == ctx.rawTxLen + |packet|
              && r.ctx.rawTx[..r.ctx.rawTxLen] == ctx.rawTx[..ctx.rawTxLen] + packet
              && r.ctx.rawTx[r.ctx.rawTxLen..] == ctx.rawTx[r.ctx.rawTxLen..]
    ensures more ==> r.sw == SwOk || r.sw == SwBadState || r.sw == SwWrongTxLength
    ensures more && r.sw == SwOk ==>
              && r.ctx.state == ctx.state && r.ctx.transaction == ctx.transaction
              && r.ctx.hash == ctx.hash
  {
    if ctx.reqType != ConfirmTransaction then Outcome(ctx, SwBadState)
    else if ctx.rawTxLen + |packet| > lim.maxTransactionLen then Outcome(ctx, SwWrongTxLength)
    else
      match Move(Buffer(packet, 0), |packet|)
      case Failed(_) => Outcome(ctx, SwWrongTxLength)
      case Done(bytes, _) =>
        var c := Appended(lim, ctx, bytes);
        if more then Outcome(c, SwOk) else Finish(lim, host, c)
  }

  /**
    The length test of a continuation packet as the code computes it: the
    received length plus the packet size, summed in a 32-bit `size_t` that
    wraps, must not exceed the accumulator's size.
   */
  predicate LengthCheckAsWritten(lim: Limits, rawTxLen: nat, size: nat)
  {
    (rawTxLen + size) % SIZE_MODULUS <= lim.maxTransactionLen
  }

  /**
    The test as written passes exactly when the true sum fits, or when the sum
    wraps past 2^32 and its low 32 bits fit. `Append` refuses the second kind.
   */
  lemma LengthCheckAsWrittenIff(lim: Limits, rawTxLen: nat, size: nat)
    requires rawTxLen < SIZE_MODULUS && size < SIZE_MODULUS
    ensures LengthCheckAsWritten(lim, rawTxLen, size) <==>
              || rawTxLen + size <= lim.maxTransactionLen
              || (SIZE_MODULUS <= rawTxLen + size && rawTxLen + size - SIZE_MODULUS <= lim.maxTransactionLen)
  {
  }

  /**
    An input on which the test as written lets through a packet that does not
    fit: 100 bytes received, a 1000-byte accumulator and a packet of
    2^32 - 50 bytes, whose sum wraps to 50. The copy that follows would write
    past the accumulator; `Append` answers `SW_WRONG_TX_LENGTH`.
   */
  lemma LengthCheckWrapAdmits(lim: Limits, host: Host, ctx: Context)
    requires lim.maxTransactionLen == 1000 && Inv(lim, ctx)
    requires ctx.reqType == ConfirmTransaction && ctx.rawTxLen == 100
    ensures LengthCheckAsWritten(lim, ctx.rawTxLen, SIZE_MODULUS - 50)
    ensures ctx.rawTxLen + (SIZE_MODULUS - 50) > lim.maxTransactionLen
    ensures forall packet: seq<Byte> | |packet| == SIZE_MODULUS - 50 ::
              Append(lim, host, ctx, packet, true).sw == SwWrongTxLength
  {
  }

  /** One packet of the command, `first` and `more` as the transport reports them. */
  function Step(lim: Limits, host: Host, ctx: Context, packet: seq<Byte>, first: bool, more: bool): (r: Outcome)
    requires Inv(lim, ctx) && |packet| < SIZE_MODULUS
    ensures Inv(lim, r.ctx)
    ensures first ==> r.ctx.rawTxLen == 0
    ensures !first ==> r.ctx.rawTxLen >= ctx.rawTxLen && r.ctx.reqType == ctx.reqType
  {
    if first then Begin(lim, host, packet) else Append(lim, host, ctx, packet, more)
  }

  /** Packets a transport can deliver: each one fits a `size_t`. */
  predicate Packets(chunks: seq<seq<Byte>>)
  {
    forall i :: 0 <= i < |chunks| ==> |chunks[i]| < SIZE_MODULUS
  }

  function Concat(chunks: seq<seq<Byte>>): seq<Byte>
  {
    if |chunks| == 0 then [] else chunks[0] + Concat(chunks[1..])
  }

  /** A run of continuation packets, each announcing that more follow. */
  function Feed(lim: Limits, host: Host, ctx: Context, chunks: seq<seq<Byte>>): (r: Context)
    requires Inv(lim, ctx) && Packets(chunks)
    ensures Inv(lim, r) && r.reqType == ctx.reqType && r.rawTxLen >= ctx.rawTxLen
    decreases |chunks|
  {
    if |chunks| == 0 then ctx
    else Feed(lim, host, Step(lim, host, ctx, chunks[0], false, true).ctx, chunks[1..])
  }

  /**
    Inside a session, packets that fit are appended in order: the accumulator
    holds the earlier bytes followed by the packets' concatenation, and
    nothing else in the context moves.
   */
  lemma {:induction false} FeedAppends(lim: Limits, host: Host, ctx: Context, chunks: seq<seq<Byte>>)
    requires Inv(lim, ctx) && Packets(chunks) && ctx.reqType == ConfirmTransaction
    requires ctx.rawTxLen + |Concat(chunks)| <= lim.maxTransactionLen
    ensures var r := Feed(lim, host, ctx, chunks);
            && r.rawTxLen == ctx.rawTxLen + |Concat(chunks)|
            && r.rawTx[..r.rawTxLen] == ctx.rawTx[..ctx.rawTxLen] + Concat(chunks)
            && r.state == ctx.state && r.transaction == ctx.transaction && r.hash == ctx.hash
    decreases |chunks|
  {
    if |chunks| > 0 {
      var c1 := Step(lim, host, ctx, chunks[0], false, true).ctx;
      assert Concat(chunks) == chunks[0] + Concat(chunks[1..]);
      AppendOne(lim, host, ctx, chunks[0]);
      assert Packets(chunks[1..]) by {
        forall i | 0 <= i < |chunks[1..]| ensures |chunks[1..][i]| < SIZE_MODULUS {
          assert chunks[1..][i] == chunks[i + 1];
        }
      }
      FeedAppends(lim, host, c1, chunks[1..]);
      assert ctx.rawTx[..ctx.rawTxLen] + Concat(chunks)
          == (ctx.rawTx[..ctx.rawTxLen] + chunks[0]) + Concat(chunks[1..]);
    }
  }

  /** One continuation packet that fits, announcing more to come. */
  lemma AppendOne(lim: Limits, host: Host, ctx: Context, packet: seq<Byte>)
    requires Inv(lim, ctx) && |packet| < SIZE_MODULUS && ctx.reqType == ConfirmTransaction
    requires ctx.rawTxLen + |packet| <= lim.maxTransactionLen
    ensures var c := Step(lim, host, ctx, packet, false, true).ctx;
            && c.reqType == ConfirmTransaction
            && c.rawTxLen == ctx.rawTxLen + |packet|
            && c.rawTx[..c.rawTxLen] == ctx.rawTx[..ctx.rawTxLen] + packet
            && c.state == ctx.state && c.transaction == ctx.transaction && c.hash == ctx.hash
  {
    assert Step(lim, host, ctx, packet, false, true) == Append(lim, host, ctx, packet, true);
  }

  /** Before any first packet, and after a refused one, continuation packets are turned away. */
  lemma NoSessionRefuses(lim: Limits, host: Host, opening: seq<Byte>, packet: seq<Byte>, more: bool)
    requires LimitsFit(lim) && |opening| < SIZE_MODULUS && |packet| < SIZE_MODULUS
    ensures Step(lim, host, Reset(lim), packet, false, more) == Outcome(Reset(lim), SwBadState)
    ensures var b := Begin(lim, host, opening);
            b.sw != SwOk ==> Step(lim, host, b.ctx, packet, false, more) == Outcome(b.ctx, SwBadState)
  {
  }

  /**
    A whole session: an accepted first packet, then continuation packets and a
    last one whose bytes are compatible with the encoding of a well-formed
    transaction. The session reaches the review screen with the transaction
    exactly when the bytes are the whole encoding; a truncated or overlong
    stream fails the parse.
   */
  lemma SignSession(lim: Limits, host: Host, opening: seq<Byte>, chunks: seq<seq<Byte>>,
                    last: seq<Byte>, tx: Transaction)
    requires LimitsFit(lim) && |opening| < SIZE_MODULUS && Packets(chunks) && |last| < SIZE_MODULUS
    requires Begin(lim, host, opening).sw == SwOk
    requires WellFormed(lim, tx) && Compatible(Concat(chunks) + last, EncodeTx(tx))
    requires |Concat(chunks) + last| <= lim.maxTransactionLen
    requires |Concat(chunks) + last| <= lim.maxTxLen
    requires host.processHints(tx.(isBlind := false)).Some?
    requires host.hashTx(tx.(isBlind := host.processHints(tx.(isBlind := false)).value), Concat(chunks) + last).Some?
    requires !host.processHints(tx.(isBlind := false)).value || host.blindSigningEnabled
    ensures var c := Feed(lim, host, Begin(lim, host, opening).ctx, chunks);
            var r := Step(lim, host, c, last, false, false);
            && (r.sw == Review <==> |Concat(chunks) + last| == |EncodeTx(tx)|)
            && (r.sw != Review ==> r.sw == SwTxParsingFail)
            && (r.sw == Review ==>
                  && r.ctx.state == StateParsed
                  && r.ctx.transaction == Some(tx.(isBlind := host.processHints(tx.(isBlind := false)).value))
                  && r.ctx.hash == host.hashTx(tx.(isBlind := host.processHints(tx.(isBlind := false)).value),
                                               Concat(chunks) + last))
  {
    var c0 := Begin(lim, host, opening).ctx;
    FeedAppends(lim, host, c0, chunks);
    var c := Feed(lim, host, c0, chunks);
    var d := Concat(chunks) + last;
    assert c.rawTx[..c.rawTxLen] == Concat(chunks);
    var r := Append(lim, host, c, last, false);
    assert r.ctx.rawTx[..r.ctx.rawTxLen] == d;
    DeserializeEncoding(lim, host.processHints, tx, d);
  }
}

=== FILE: transaction.dfy ===
/**
  The parsed transaction record, the parser's status codes, and the size
  limits the ingestion path enforces.
 */
module Tx {
  import opened Bytes
  import opened Wrappers
  import opened Reader

  /** The optional hints: a 32-bit type and the hint bytes (their length is 16 bits on the wire). */
  datatype Hints = Hints(hintsType: nat, data: seq<Byte>)

  datatype Transaction = Transaction(
    tag: Byte,
    seqno: nat,
    timeout: nat,
    value: seq<Byte>,          // big-endian amount; its length is `value_len`
    to: Address,
    bounce: Byte,
    sendMode: Byte,
    stateInit: Option<CellRef>,
    payload: Option<CellRef>,
    hints: Option<Hints>,
    isBlind: bool              // set by the hints processor
  )

  /** `parser_status_e`: one code per field, plus success and the length check. */
  datatype ParserStatus =
    | ParsingOk
    | WrongLengthError
    | TagParsingError
    | SeqParsingError
    | TimeoutParsingError
    | ValueParsingError
    | ToParsingError
    | BounceParsingError
    | SendModeParsingError
    | StateInitParsingError
    | PayloadParsingError
    | HintsParsingError

  /**
    The build-time limits: `MAX_TX_LEN` bounds the buffer the parser accepts,
    `MAX_TRANSACTION_LEN` the accumulated packets, `MAX_VALUE_BYTES_LEN` the
    amount's byte length. Their values are defined outside this model.
   */
  datatype Limits = Limits(maxTxLen: nat, maxTransactionLen: nat, maxValueBytesLen: nat)

  /** The hints processor: rejects the transaction, or accepts it and says whether it is blind. */
  type HintsProcessor = Transaction -> Option<bool>

  predicate ValidCellRef(c: CellRef)
  {
    c.maxDepth < Pow2(16) && |c.hash| == HASH_LEN
  }

  /** The fixed part of the record, from the tag to the send mode. */
  datatype Header = Header(
    tag: Byte, seqno: nat, timeout: nat, value: seq<Byte>, to: Address, bounce: Byte, sendMode: Byte)

  /** The three optional parts that follow the header. */
  datatype Optionals = Optionals(stateInit: Option<CellRef>, payload: Option<CellRef>, hints: Option<Hints>)

  function HeaderOf(tx: Transaction): Header
  {
    Header(tx.tag, tx.seqno, tx.timeout, tx.value, tx.to, tx.bounce, tx.sendMode)
  }

  function OptionalsOf(tx: Transaction): Optionals
  {
    Optionals(tx.stateInit, tx.payload, tx.hints)
  }

  /** The record built from its two parts; taking it apart again gives the parts back. */
  function Assemble(h: Header, o: Optionals, isBlind: bool): (tx: Transaction)
    ensures HeaderOf(tx) == h && OptionalsOf(tx) == o && tx.isBlind == isBlind
  {
    Transaction(h.tag, h.seqno, h.timeout, h.value, h.to, h.bounce, h.sendMode,
                o.stateInit, o.payload, o.hints, isBlind)
  }

  /** The transactions the wire format can carry under the given limits. */
  predicate WellFormed(lim: Limits, tx: Transaction)
  {
    HeaderFits(lim, HeaderOf(tx)) && OptionalsFit(OptionalsOf(tx))
  }

  /** The fixed fields fit their wire widths and the limits. */
  predicate HeaderFits(lim: Limits, h: Header)
  {
    && h.tag == 0
    && h.seqno < Pow2(32)
    && h.timeout < Pow2(32)
    && |h.value| <= lim.maxValueBytesLen && |h.value| < 256
    && |h.to.hash| == HASH_LEN
  }

  /** The optional parts fit their wire widths, and hints come only with a payload. */
  predicate OptionalsFit(o: Optionals)
  {
    && (o.stateInit.Some? ==> ValidCellRef(o.stateInit.value))
    && (o.payload.Some? ==> ValidCellRef(o.payload.value))
    && (o.hints.Some? ==> && o.payload.Some?
                          && o.hints.value.hintsType < Pow2(32)
                          && |o.hints.value.data| < Pow2(16))
  }
}

=== FILE: wire_format.dfy ===
/**
  The wire layout of a transaction, written as an encoder, and the proof that
  the deserializer is its inverse: on an encoded transaction it returns the
  transaction; on a truncated one it fails with the code of the field the
  input ends in; on one with bytes left over it fails with the length error.
 */
module WireFormat {
  import opened Bytes
  import opened Wrappers
  import opened Reader
  import opened Tx
  import opened Deserializer

  function EncodeHeader(tx: Transaction): (r: seq<Byte>)
    requires |tx.value| < 256
    ensures |r| == 13 + |tx.value| + |tx.to.hash|
  {
    [tx.tag] + (BeBytes(tx.seqno, 4) + (BeBytes(tx.timeout, 4) + EncodeTransfer(tx)))
  }

  function EncodeTransfer(tx: Transaction): (r: seq<Byte>)
    requires |tx.value| < 256
    ensures |r| == 4 + |tx.value| + |tx.to.hash|
  {
    EncodeVarUint(tx.value) + (EncodeAddress(tx.to) + ([tx.bounce] + [tx.sendMode]))
  }

  function EncodeOptCellRef(c: Option<CellRef>): (r: seq<Byte>)
    ensures |r| == if c.None? then 1 else 3 + |c.value.hash|
  {
    match c
    case None => [0]
    case Some(ref) => [1] + EncodeCellRef(ref)
  }

  function EncodeHints(h: Option<Hints>): (r: seq<Byte>)
    ensures |r| == if h.None? then 1 else 7 + |h.value.data|
  {
    match h
    case None => [0]
    case Some(hints) => [1] + (BeBytes(hints.hintsType, 4) + (BeBytes(|hints.data|, 2) + hints.data))
  }

  function EncodeOptionals(tx: Transaction): (r: seq<Byte>)
    ensures |r| == |EncodeOptCellRef(tx.stateInit)| + |EncodeOptCellRef(tx.payload)| + |EncodeHints(tx.hints)|
  {
    EncodeOptCellRef(tx.stateInit) + (EncodeOptCellRef(tx.payload) + EncodeHints(tx.hints))
  }

  /** The byte layout the host sends: header, state init, payload, hints. */
  function EncodeTx(tx: Transaction): (r: seq<Byte>)
    requires |tx.value| < 256
    ensures |r| == |EncodeHeader(tx)| + |EncodeOptionals(tx)|
  {
    EncodeHeader(tx) + EncodeOptionals(tx)
  }

  function TransferOf(tx: Transaction): Transfer
  {
    Transfer(tx.value, tx.to, tx.bounce, tx.sendMode)
  }

  /** Status of a parse that runs out of bytes `n` bytes into the header. */
  function HeaderCut(tx: Transaction, n: nat): ParserStatus
  {
    if n < 1 then TagParsingError
    else if n < 5 then SeqParsingError
    else if n < 9 then TimeoutParsingError
    else TransferCut(tx, n - 9)
  }

  /** Status of a parse that runs out of bytes `n` bytes after the timeout. */
  function TransferCut(tx: Transaction, n: nat): ParserStatus
  {
    if n < 1 + |tx.value| then ValueParsingError
    else if n < 1 + |tx.value| + 1 + HASH_LEN then ToParsingError
    else if n < 2 + |tx.value| + 1 + HASH_LEN then BounceParsingError
    else SendModeParsingError
  }

  /**
    Status of a parse of the first `n` bytes of the encoding: the code of the
    field in which the input ends. A short payload cell reference is reported
    with the state-init code, as the source does.
   */
  function CutCode(tx: Transaction, n: nat): ParserStatus
    requires |tx.value| < 256
  {
    var h := |EncodeHeader(tx)|;
    if n < h then HeaderCut(tx, n) else OptionalsCut(tx, n - h)
  }

  /** Status of a parse that runs out of bytes `n` bytes after the header. */
  function OptionalsCut(tx: Transaction, n: nat): ParserStatus
  {
    var s := |EncodeOptCellRef(tx.stateInit)|;
    var p := |EncodeOptCellRef(tx.payload)|;
    if n < s then StateInitParsingError
    else if n == s then PayloadParsingError
    else if n < s + p then StateInitParsingError
    else HintsParsingError
  }

  // One lemma per kind of field: where the input agrees with the field's
  // encoding followed by `t`, the field parses to its value, or fails with
  // `code` when the input ends inside it, and the input after it agrees with `t`.

  lemma StepU8(d: seq<Byte>, o: nat, v: Byte, t: seq<Byte>, code: ParserStatus)
    requires Buffer(d, o).Valid() && Agrees(d, o, [v] + t)
    ensures Expect(ReadU8(Buffer(d, o)), code) ==
              if o + 1 <= |d| then Next(v, Buffer(d, o + 1)) else Stop(code)
    ensures o + 1 <= |d| ==> Agrees(d, o + 1, t)
  {
    Advance(d, o, [v], t);
    U8RoundTrip(d, o, v);
  }

  lemma StepU32(d: seq<Byte>, o: nat, v: nat, t: seq<Byte>, code: ParserStatus)
    requires Buffer(d, o).Valid() && v < Pow2(32) && Agrees(d, o, BeBytes(v, 4) + t)
    ensures Expect(ReadU32(Buffer(d, o), BE), code) ==
              if o + 4 <= |d| then Next(v, Buffer(d, o + 4)) else Stop(code)
    ensures o + 4 <= |d| ==> Agrees(d, o + 4, t)
  {
    Advance(d, o, BeBytes(v, 4), t);
    FixedRoundTrip(d, o, v, 4, BE);
  }

  lemma StepVarUint(d: seq<Byte>, o: nat, v: seq<Byte>, outLen: nat, t: seq<Byte>, code: ParserStatus)
    requires Buffer(d, o).Valid() && |v| < 256 && |v| <= outLen
    requires Agrees(d, o, EncodeVarUint(v) + t)
    ensures Expect(ReadVarUint(Buffer(d, o), outLen), code) ==
              if o + 1 + |v| <= |d| then Next(v, Buffer(d, o + 1 + |v|)) else Stop(code)
    ensures o + 1 + |v| <= |d| ==> Agrees(d, o + 1 + |v|, t)
  {
    Advance(d, o, EncodeVarUint(v), t);
    VarUintRoundTrip(d, o, v, outLen);
  }

  lemma StepAddress(d: seq<Byte>, o: nat, a: Address, t: seq<Byte>, code: ParserStatus)
    requires Buffer(d, o).Valid() && |a.hash| == HASH_LEN
    requires Agrees(d, o, EncodeAddress(a) + t)
    ensures Expect(ReadAddress(Buffer(d, o)), code) ==
              if o + 33 <= |d| then Next(a, Buffer(d, o + 33)) else Stop(code)
    ensures o + 33 <= |d| ==> Agrees(d, o + 33, t)
  {
    Advance(d, o, EncodeAddress(a), t);
    AddressRoundTrip(d, o, a);
  }

  /** The header followed by `rest`, regrouped field by field. */
  lemma HeaderFields(tx: Transaction, d: seq<Byte>, o: nat, rest: seq<Byte>)
    requires |tx.value| < 256 && Agrees(d, o, EncodeHeader(tx) + rest)
    ensures Agrees(d, o, [tx.tag] + (BeBytes(tx.seqno, 4) + (BeBytes(tx.timeout, 4) + (EncodeTransfer(tx) + rest))))
  {
    assert EncodeHeader(tx) + rest == [tx.tag] + (BeBytes(tx.seqno, 4) + (BeBytes(tx.timeout, 4) + (EncodeTransfer(tx) + rest)));
  }

  lemma TransferFields(tx: Transaction, d: seq<Byte>, o: nat, rest: seq<Byte>)
    requires |tx.value| < 256 && Agrees(d, o, EncodeTransfer(tx) + rest)
    ensures Agrees(d, o, EncodeVarUint(tx.value) + (EncodeAddress(tx.to) + ([tx.bounce] + ([tx.sendMode] + rest))))
  {
    assert EncodeTransfer(tx) + rest == EncodeVarUint(tx.value) + (EncodeAddress(tx.to) + ([tx.bounce] + ([tx.sendMode] + rest)));
  }

  lemma HeaderOn(lim: Limits, tx: Transaction, d: seq<Byte>, o: nat, rest: seq<Byte>)
    requires HeaderFits(lim, HeaderOf(tx)) && Buffer(d, o).Valid()
    requires Agrees(d, o, EncodeHeader(tx) + rest)
    ensures var n := |EncodeHeader(tx)|;
            ParseHeader(lim, Buffer(d, o)) ==
              if o + n <= |d| then Next(HeaderOf(tx), Buffer(d, o + n))
              else Stop(HeaderCut(tx, |d| - o))
  {
    if |d| < o + 9 {
      HeaderShort(lim, tx, d, o, rest);
    } else {
      HeaderLong(lim, tx, d, o, rest);
    }
  }

  /** `HeaderOn` where the input ends before the value field. */
  lemma HeaderShort(lim: Limits, tx: Transaction, d: seq<Byte>, o: nat, rest: seq<Byte>)
    requires HeaderFits(lim, HeaderOf(tx)) && Buffer(d, o).Valid() && |d| < o + 9
    requires Agrees(d, o, EncodeHeader(tx) + rest)
    ensures ParseHeader(lim, Buffer(d, o)) == Stop(HeaderCut(tx, |d| - o))
  {
    CountersOn(tx, d, o, rest);
    CountersCut(lim, tx, d, o);
  }

  /** `HeaderOn` where the input holds the tag, sequence number and timeout. */
  lemma HeaderLong(lim: Limits, tx: Transaction, d: seq<Byte>, o: nat, rest: seq<Byte>)
    requires HeaderFits(lim, HeaderOf(tx)) && Buffer(d, o).Valid() && o + 9 <= |d|
    requires Agrees(d, o, EncodeHeader(tx) + rest)
    ensures var n := |EncodeHeader(tx)|;
            ParseHeader(lim, Buffer(d, o)) ==
              if o + n <= |d| then Next(HeaderOf(tx), Buffer(d, o + n))
              else Stop(HeaderCut(tx, |d| - o))
  {
    CountersOn(tx, d, o, rest);
    TransferOn(lim, tx, d, o + 9, rest);
    AfterCounters(lim, tx, d, o);
  }

  /** An input that ends inside the tag, sequence number or timeout. */
  lemma CountersCut(lim: Limits, tx: Transaction, d: seq<Byte>, o: nat)
    requires Buffer(d, o).Valid() && |d| < o + 9
    requires ParseTag(Buffer(d, o)) ==
               if o + 1 <= |d| then Next(0, Buffer(d, o + 1)) else Stop(TagParsingError)
    requires o + 1 <= |d| ==> (Expect(ReadU32(Buffer(d, o + 1), BE), SeqParsingError) ==
               if o + 5 <= |d| then Next(tx.seqno, Buffer(d, o + 5)) else Stop(SeqParsingError))
    requires o + 5 <= |d| ==> Expect(ReadU32(Buffer(d, o + 5), BE), TimeoutParsingError) == Stop(TimeoutParsingError)
    ensures ParseHeader(lim, Buffer(d, o)) == Stop(HeaderCut(tx, |d| - o))
  {
  }

  /** Once the tag, sequence number and timeout are read, the header is what the rest gives. */
  lemma AfterCounters(lim: Limits, tx: Transaction, d: seq<Byte>, o: nat)
    requires Buffer(d, o).Valid() && o + 9 <= |d|
    requires ParseTag(Buffer(d, o)) == Next(0, Buffer(d, o + 1)) && tx.tag == 0
    requires Expect(ReadU32(Buffer(d, o + 1), BE), SeqParsingError) == Next(tx.seqno, Buffer(d, o + 5))
    requires Expect(ReadU32(Buffer(d, o + 5), BE), TimeoutParsingError) == Next(tx.timeout, Buffer(d, o + 9))
    ensures ParseHeader(lim, Buffer(d, o)) ==
              match ParseTransfer(lim, Buffer(d, o + 9))
              case Stop(e) => Stop(e)
              case Next(t, b) => Next(Header(tx.tag, tx.seqno, tx.timeout, t.value, t.to, t.bounce, t.sendMode), b)
  {
  }

  /** The tag, sequence number and timeout reads of `ParseHeader`. */
  lemma CountersOn(tx: Transaction, d: seq<Byte>, o: nat, rest: seq<Byte>)
    requires tx.tag == 0 && tx.seqno < Pow2(32) && tx.timeout < Pow2(32) && |tx.value| < 256
    requires Buffer(d, o).Valid() && Agrees(d, o, EncodeHeader(tx) + rest)
    ensures ParseTag(Buffer(d, o)) ==
              if o + 1 <= |d| then Next(0, Buffer(d, o + 1)) else Stop(TagParsingError)
    ensures o + 1 <= |d| ==> (Expect(ReadU32(Buffer(d, o + 1), BE), SeqParsingError) ==
              if o + 5 <= |d| then Next(tx.seqno, Buffer(d, o + 5)) else Stop(SeqParsingError))
    ensures o + 5 <= |d| ==> (Expect(ReadU32(Buffer(d, o + 5), BE), TimeoutParsingError) ==
              if o + 9 <= |d| then Next(tx.timeout, Buffer(d, o + 9)) else Stop(TimeoutParsingError))
    ensures o + 9 <= |d| ==> Agrees(d, o + 9, EncodeTransfer(tx) + rest)
  {
    var t3 := EncodeTransfer(tx) + rest;
    var t2 := BeBytes(tx.timeout, 4) + t3;
    var t1 := BeBytes(tx.seqno, 4) + t2;
    HeaderFields(tx, d, o, rest);
    StepU8(d, o, tx.tag, t1, TagParsingError);
    if |d| < o + 1 {
      return;
    }
    StepU32(d, o + 1, tx.seqno, t2, SeqParsingError);
    if |d| < o + 5 {
      return;
    }
    StepU32(d, o + 5, tx.timeout, t3, TimeoutParsingError);
  }

  lemma TransferOn(lim: Limits, tx: Transaction, d: seq<Byte>, o: nat, rest: seq<Byte>)
    requires HeaderFits(lim, HeaderOf(tx)) && Buffer(d, o).Valid()
    requires Agrees(d, o, EncodeTransfer(tx) + rest)
    ensures var n := |EncodeTransfer(tx)|;
            ParseTransfer(lim, Buffer(d, o)) ==
              if o + n <= |d| then Next(TransferOf(tx), Buffer(d, o + n))
              else Stop(TransferCut(tx, |d| - o))
  {
    var o1 := o + 1 + |tx.value|;
    TransferReads(lim, tx, d, o, rest);
    if o1 + 35 <= |d| {
      TransferFound(lim, tx, d, o, o1, o1 + 33);
    } else {
      TransferShort(lim, tx, d, o);
    }
  }

  /** The four reads of `ParseTransfer`, each on the bytes its field was written to. */
  lemma TransferReads(lim: Limits, tx: Transaction, d: seq<Byte>, o: nat, rest: seq<Byte>)
    requires HeaderFits(lim, HeaderOf(tx)) && Buffer(d, o).Valid()
    requires Agrees(d, o, EncodeTransfer(tx) + rest)
    ensures var o1 := o + 1 + |tx.value|;
            Expect(ReadVarUint(Buffer(d, o), lim.maxValueBytesLen), ValueParsingError) ==
              if o1 <= |d| then Next(tx.value, Buffer(d, o1)) else Stop(ValueParsingError)
    ensures var o1 := o + 1 + |tx.value|;
            o1 <= |d| ==> (Expect(ReadAddress(Buffer(d, o1)), ToParsingError) ==
              if o1 + 33 <= |d| then Next(tx.to, Buffer(d, o1 + 33)) else Stop(ToParsingError))
    ensures var o1 := o + 1 + |tx.value|;
            o1 + 33 <= |d| ==> (Expect(ReadU8(Buffer(d, o1 + 33)), BounceParsingError) ==
              if o1 + 34 <= |d| then Next(tx.bounce, Buffer(d, o1 + 34)) else Stop(BounceParsingError))
    ensures var o1 := o + 1 + |tx.value|;
            o1 + 34 <= |d| ==> (Expect(ReadU8(Buffer(d, o1 + 34)), SendModeParsingError) ==
              if o1 + 35 <= |d| then Next(tx.sendMode, Buffer(d, o1 + 35)) else Stop(SendModeParsingError))
  {
    var t1 := EncodeAddress(tx.to) + ([tx.bounce] + ([tx.sendMode] + rest));
    TransferFields(tx, d, o, rest);
    var o1 := o + 1 + |tx.value|;
    StepVarUint(d, o, tx.value, lim.maxValueBytesLen, t1, ValueParsingError);
    if o1 <= |d| {
      DestinationOn(tx, d, o1, rest);
    }
  }

  /** An input that ends inside the transfer fields. */
  lemma TransferShort(lim: Limits, tx: Transaction, d: seq<Byte>, o: nat)
    requires Buffer(d, o).Valid() && |tx.to.hash| == HASH_LEN
    requires var o1 := o + 1 + |tx.value|;
             && |d| < o1 + 35
             && Expect(ReadVarUint(Buffer(d, o), lim.maxValueBytesLen), ValueParsingError) ==
                  (if o1 <= |d| then Next(tx.value, Buffer(d, o1)) else Stop(ValueParsingError))
             && (o1 <= |d| ==> (Expect(ReadAddress(Buffer(d, o1)), ToParsingError) ==
                  if o1 + 33 <= |d| then Next(tx.to, Buffer(d, o1 + 33)) else Stop(ToParsingError)))
             && (o1 + 33 <= |d| ==> (Expect(ReadU8(Buffer(d, o1 + 33)), BounceParsingError) ==
                  if o1 + 34 <= |d| then Next(tx.bounce, Buffer(d, o1 + 34)) else Stop(BounceParsingError)))
             && (o1 + 34 <= |d| ==> Expect(ReadU8(Buffer(d, o1 + 34)), SendModeParsingError) == Stop(SendModeParsingError))
    ensures ParseTransfer(lim, Buffer(d, o)) == Stop(TransferCut(tx, |d| - o))
  {
  }

  lemma DestinationOn(tx: Transaction, d: seq<Byte>, o: nat, rest: seq<Byte>)
    requires |tx.to.hash| == HASH_LEN && Buffer(d, o).Valid()
    requires Agrees(d, o, EncodeAddress(tx.to) + ([tx.bounce] + ([tx.sendMode] + rest)))
    ensures Expect(ReadAddress(Buffer(d, o)), ToParsingError) ==
              if o + 33 <= |d| then Next(tx.to, Buffer(d, o + 33)) else Stop(ToParsingError)
    ensures o + 33 <= |d| ==> (Expect(ReadU8(Buffer(d, o + 33)), BounceParsingError) ==
              if o + 34 <= |d| then Next(tx.bounce, Buffer(d, o + 34)) else Stop(BounceParsingError))
    ensures o + 34 <= |d| ==> (Expect(ReadU8(Buffer(d, o + 34)), SendModeParsingError) ==
              if o + 35 <= |d| then Next(tx.sendMode, Buffer(d, o + 35)) else Stop(SendModeParsingError))
  {
    var t3 := [tx.sendMode] + rest;
    var t2 := [tx.bounce] + t3;
    StepAddress(d, o, tx.to, t2, ToParsingError);
    if |d| < o + 33 {
      return;
    }
    StepU8(d, o + 33, tx.bounce, t3, BounceParsingError);
    if |d| < o + 34 {
      return;
    }
    StepU8(d, o + 34, tx.sendMode, rest, SendModeParsingError);
  }

  lemma TransferFound(lim: Limits, tx: Transaction, d: seq<Byte>, o: nat, o1: nat, o2: nat)
    requires Buffer(d, o).Valid() && o2 + 2 <= |d|
    requires Expect(ReadVarUint(Buffer(d, o), lim.maxValueBytesLen), ValueParsingError) == Next(tx.value, Buffer(d, o1))
    requires Expect(ReadAddress(Buffer(d, o1)), ToParsingError) == Next(tx.to, Buffer(d, o2))
    requires Expect(ReadU8(Buffer(d, o2)), BounceParsingError) == Next(tx.bounce, Buffer(d, o2 + 1))
    requires Expect(ReadU8(Buffer(d, o2 + 1)), SendModeParsingError) == Next(tx.sendMode, Buffer(d, o2 + 2))
    ensures ParseTransfer(lim, Buffer(d, o)) == Next(TransferOf(tx), Buffer(d, o2 + 2))
  {
  }

  lemma OptCellRefOn(c: Option<CellRef>, d: seq<Byte>, o: nat, rest: seq<Byte>,
                     flagCode: ParserStatus, refCode: ParserStatus)
    requires c.Some? ==> ValidCellRef(c.value)
    requires Buffer(d, o).Valid() && Agrees(d, o, EncodeOptCellRef(c) + rest)
    ensures var n := |EncodeOptCellRef(c)|;
            ParseOptionalCellRef(Buffer(d, o), flagCode, refCode) ==
              if o + n <= |d| then Next(c, Buffer(d, o + n))
              else if o == |d| then Stop(flagCode)
              else Stop(refCode)
  {
    Advance(d, o, EncodeOptCellRef(c), rest);
    match c
    case None =>
      BoolRoundTrip(d, o, false);
    case Some(ref) =>
      CellRefPresentOn(ref, d, o, flagCode, refCode);
  }

  lemma CellRefPresentOn(ref: CellRef, d: seq<Byte>, o: nat, flagCode: ParserStatus, refCode: ParserStatus)
    requires ValidCellRef(ref)
    requires Buffer(d, o).Valid() && Agrees(d, o, [1] + EncodeCellRef(ref))
    ensures var n := 1 + 2 + HASH_LEN;
            ParseOptionalCellRef(Buffer(d, o), flagCode, refCode) ==
              if o + n <= |d| then Next(Some(ref), Buffer(d, o + n))
              else if o == |d| then Stop(flagCode)
              else Stop(refCode)
  {
    CellRefReads(ref, d, o, flagCode, refCode);
    CellRefPresentFrom(d, o, flagCode, refCode, ref);
  }

  /** The flag read and the cell-reference read, each on the bytes its part was written to. */
  lemma CellRefReads(ref: CellRef, d: seq<Byte>, o: nat, flagCode: ParserStatus, refCode: ParserStatus)
    requires ValidCellRef(ref)
    requires Buffer(d, o).Valid() && Agrees(d, o, [1] + EncodeCellRef(ref))
    ensures Expect(ReadBool(Buffer(d, o)), flagCode) ==
              if o + 1 <= |d| then Next(true, Buffer(d, o + 1)) else Stop(flagCode)
    ensures o + 1 <= |d| ==> (Expect(ReadCellRef(Buffer(d, o + 1)), refCode) ==
              if o + 3 + HASH_LEN <= |d| then Next(ref, Buffer(d, o + 3 + HASH_LEN)) else Stop(refCode))
  {
    Advance(d, o, [1], EncodeCellRef(ref));
    BoolRoundTrip(d, o, true);
    if o + 1 <= |d| {
      CellRefRoundTrip(d, o + 1, ref);
    }
  }

  /** `ParseOptionalCellRef` after a set flag, given what its two reads return. */
  lemma CellRefPresentFrom(d: seq<Byte>, o: nat, flagCode: ParserStatus, refCode: ParserStatus, ref: CellRef)
    requires Buffer(d, o).Valid()
    requires Expect(ReadBool(Buffer(d, o)), flagCode) ==
               if o + 1 <= |d| then Next(true, Buffer(d, o + 1)) else Stop(flagCode)
    requires o + 1 <= |d| ==> (Expect(ReadCellRef(Buffer(d, o + 1)), refCode) ==
               if o + 3 + HASH_LEN <= |d| then Next(ref, Buffer(d, o + 3 + HASH_LEN)) else Stop(refCode))
    ensures ParseOptionalCellRef(Buffer(d, o), flagCode, refCode) ==
              if o + 3 + HASH_LEN <= |d| then Next(Some(ref), Buffer(d, o + 3 + HASH_LEN))
              else if o == |d| then Stop(flagCode)
              else Stop(refCode)
  {
  }

  lemma StepU16(d: seq<Byte>, o: nat, v: nat, t: seq<Byte>, code: ParserStatus)
    requires Buffer(d, o).Valid() && v < Pow2(16) && Agrees(d, o, BeBytes(v, 2) + t)
    ensures Expect(ReadU16(Buffer(d, o), BE), code) ==
              if o + 2 <= |d| then Next(v, Buffer(d, o + 2)) else Stop(code)
    ensures o + 2 <= |d| ==> Agrees(d, o + 2, t)
  {
    Advance(d, o, BeBytes(v, 2), t);
    FixedRoundTrip(d, o, v, 2, BE);
  }

  lemma StepRef(d: seq<Byte>, o: nat, v: seq<Byte>, code: ParserStatus)
    requires Buffer(d, o).Valid() && Agrees(d, o, v)
    ensures var r := Expect(ReadRef(Buffer(d, o), |v|), code);
            && (r.Next? <==> o + |v| <= |d|)
            && (r.Next? ==> && r.rest == Buffer(d, o + |v|)
                            && d[r.value.start..r.value.start + r.value.length] == v)
            && (r.Stop? ==> r.status == code)
  {
    AgreesSlice(d, o, v);
  }

  lemma HintsPresentOn(hints: Hints, d: seq<Byte>, o: nat)
    requires hints.hintsType < Pow2(32) && |hints.data| < Pow2(16)
    requires Buffer(d, o).Valid() && Agrees(d, o, EncodeHints(Some(hints)))
    ensures var n := 7 + |hints.data|;
            ParseHints(Buffer(d, o), true) ==
              if o + n <= |d| then Next(Some(hints), Buffer(d, o + n))
              else Stop(HintsParsingError)
  {
    HintsReads(hints, d, o);
    if o + 7 + |hints.data| <= |d| {
      HintsDataAt(hints, d, o);
      HintsFound(hints, d, o);
    } else {
      HintsShort(hints, d, o);
    }
  }

  /** The reads of `ParseHints` after a set flag, each on the bytes its field was written to. */
  lemma HintsReads(hints: Hints, d: seq<Byte>, o: nat)
    requires hints.hintsType < Pow2(32) && |hints.data| < Pow2(16)
    requires Buffer(d, o).Valid() && Agrees(d, o, EncodeHints(Some(hints)))
    ensures Expect(ReadBool(Buffer(d, o)), HintsParsingError) ==
              if o + 1 <= |d| then Next(true, Buffer(d, o + 1)) else Stop(HintsParsingError)
    ensures o + 1 <= |d| ==> (Expect(ReadU32(Buffer(d, o + 1), BE), HintsParsingError) ==
              if o + 5 <= |d| then Next(hints.hintsType, Buffer(d, o + 5)) else Stop(HintsParsingError))
    ensures o + 5 <= |d| ==> (Expect(ReadU16(Buffer(d, o + 5), BE), HintsParsingError) ==
              if o + 7 <= |d| then Next(|hints.data|, Buffer(d, o + 7)) else Stop(HintsParsingError))
  {
    var t2 := BeBytes(|hints.data|, 2) + hints.data;
    var t1 := BeBytes(hints.hintsType, 4) + t2;
    Advance(d, o, [1], t1);
    BoolRoundTrip(d, o, true);
    if o + 1 <= |d| {
      HintsCounterReads(hints, d, o);
    }
  }

  /** The hint type and data length, read after a flag at offset `o`. */
  lemma HintsCounterReads(hints: Hints, d: seq<Byte>, o: nat)
    requires hints.hintsType < Pow2(32) && |hints.data| < Pow2(16)
    requires o + 1 <= |d| < SIZE_MODULUS
    requires Agrees(d, o + 1, BeBytes(hints.hintsType, 4) + (BeBytes(|hints.data|, 2) + hints.data))
    ensures Expect(ReadU32(Buffer(d, o + 1), BE), HintsParsingError) ==
              if o + 5 <= |d| then Next(hints.hintsType, Buffer(d, o + 5)) else Stop(HintsParsingError)
    ensures o + 5 <= |d| ==> (Expect(ReadU16(Buffer(d, o + 5), BE), HintsParsingError) ==
              if o + 7 <= |d| then Next(|hints.data|, Buffer(d, o + 7)) else Stop(HintsParsingError))
  {
    StepU32(d, o + 1, hints.hintsType, BeBytes(|hints.data|, 2) + hints.data, HintsParsingError);
    if o + 5 <= |d| {
      StepU16(d, o + 5, |hints.data|, hints.data, HintsParsingError);
    }
  }

  lemma HintsDataAt(hints: Hints, d: seq<Byte>, o: nat)
    requires Buffer(d, o).Valid() && Agrees(d, o, EncodeHints(Some(hints)))
    requires o + 7 + |hints.data| <= |d|
    ensures d[o + 7..o + 7 + |hints.data|] == hints.data
  {
    var e := EncodeHints(Some(hints));
    AgreesSlice(d, o, e);
    assert d[o + 7..o + 7 + |hints.data|] == d[o..o + |e|][7..];
  }

  lemma HintsFound(hints: Hints, d: seq<Byte>, o: nat)
    requires Buffer(d, o).Valid() && o + 7 + |hints.data| <= |d|
    requires Expect(ReadBool(Buffer(d, o)), HintsParsingError) == Next(true, Buffer(d, o + 1))
    requires Expect(ReadU32(Buffer(d, o + 1), BE), HintsParsingError) == Next(hints.hintsType, Buffer(d, o + 5))
    requires Expect(ReadU16(Buffer(d, o + 5), BE), HintsParsingError) == Next(|hints.data|, Buffer(d, o + 7))
    requires d[o + 7..o + 7 + |hints.data|] == hints.data
    ensures ParseHints(Buffer(d, o), true) == Next(Some(hints), Buffer(d, o + 7 + |hints.data|))
  {
  }

  /** An input that ends inside the hints. */
  lemma HintsShort(hints: Hints, d: seq<Byte>, o: nat)
    requires Buffer(d, o).Valid() && |d| < o + 7 + |hints.data|
    requires Expect(ReadBool(Buffer(d, o)), HintsParsingError) ==
               if o + 1 <= |d| then Next(true, Buffer(d, o + 1)) else Stop(HintsParsingError)
    requires o + 1 <= |d| ==> (Expect(ReadU32(Buffer(d, o + 1), BE), HintsParsingError) ==
               if o + 5 <= |d| then Next(hints.hintsType, Buffer(d, o + 5)) else Stop(HintsParsingError))
    requires o + 5 <= |d| ==> (Expect(ReadU16(Buffer(d, o + 5), BE), HintsParsingError) ==
               if o + 7 <= |d| then Next(|hints.data|, Buffer(d, o + 7)) else Stop(HintsParsingError))
    ensures ParseHints(Buffer(d, o), true) == Stop(HintsParsingError)
  {
  }

  lemma HintsOn(h: Option<Hints>, hasPayload: bool, d: seq<Byte>, o: nat, e: nat)
    requires h.Some? ==> hasPayload && h.value.hintsType < Pow2(32) && |h.value.data| < Pow2(16)
    requires Buffer(d, o).Valid() && Agrees(d, o, EncodeHints(h)) && e == o + |EncodeHints(h)|
    ensures ParseHints(Buffer(d, o), hasPayload) ==
              if e <= |d| then Next(h, Buffer(d, e)) else Stop(HintsParsingError)
  {
    match h
    case None =>
      BoolRoundTrip(d, o, false);
    case Some(hints) =>
      HintsPresentOn(hints, d, o);
  }

  lemma OptionalsOn(tx: Transaction, d: seq<Byte>, o: nat)
    requires OptionalsFit(OptionalsOf(tx))
    requires Buffer(d, o).Valid() && Agrees(d, o, EncodeOptionals(tx))
    ensures var n := |EncodeOptionals(tx)|;
            ParseOptionals(Buffer(d, o)) ==
              if o + n <= |d| then Next(OptionalsOf(tx), Buffer(d, o + n))
              else Stop(OptionalsCut(tx, |d| - o))
  {
    var o1 := o + |EncodeOptCellRef(tx.stateInit)|;
    var o2 := o1 + |EncodeOptCellRef(tx.payload)|;
    var o3 := o2 + |EncodeHints(tx.hints)|;
    OptionalsReads(tx, d, o, o1, o2, o3);
    if o3 <= |d| {
      OptionalsFound(tx, d, o, o1, o2, o3);
    } else {
      OptionalsShort(tx, d, o, o1, o2, o3);
    }
  }

  /** The three optional parts, each parsed from the bytes it was written to. */
  lemma OptionalsReads(tx: Transaction, d: seq<Byte>, o: nat, o1: nat, o2: nat, o3: nat)
    requires OptionalsFit(OptionalsOf(tx))
    requires Buffer(d, o).Valid() && Agrees(d, o, EncodeOptionals(tx))
    requires o1 == o + |EncodeOptCellRef(tx.stateInit)|
    requires o2 == o1 + |EncodeOptCellRef(tx.payload)|
    requires o3 == o2 + |EncodeHints(tx.hints)|
    ensures ParseOptionalCellRef(Buffer(d, o), StateInitParsingError, StateInitParsingError) ==
              if o1 <= |d| then Next(tx.stateInit, Buffer(d, o1)) else Stop(StateInitParsingError)
    ensures o1 <= |d| ==> (ParseOptionalCellRef(Buffer(d, o1), PayloadParsingError, StateInitParsingError) ==
              if o2 <= |d| then Next(tx.payload, Buffer(d, o2))
              else if o1 == |d| then Stop(PayloadParsingError)
              else Stop(StateInitParsingError))
    ensures o2 <= |d| ==> (ParseHints(Buffer(d, o2), tx.payload.Some?) ==
              if o3 <= |d| then Next(tx.hints, Buffer(d, o3)) else Stop(HintsParsingError))
  {
    var e1, e2, e3 := EncodeOptCellRef(tx.stateInit), EncodeOptCellRef(tx.payload), EncodeHints(tx.hints);
    OptCellRefOn(tx.stateInit, d, o, e2 + e3, StateInitParsingError, StateInitParsingError);
    if o1 <= |d| {
      Skip(d, o, e1, e2 + e3);
      PayloadReads(tx, d, o1, o2, o3);
    }
  }

  lemma PayloadReads(tx: Transaction, d: seq<Byte>, o1: nat, o2: nat, o3: nat)
    requires tx.payload.Some? ==> ValidCellRef(tx.payload.value)
    requires tx.hints.Some? ==> && tx.payload.Some?
                                && tx.hints.value.hintsType < Pow2(32) && |tx.hints.value.data| < Pow2(16)
    requires Buffer(d, o1).Valid() && Agrees(d, o1, EncodeOptCellRef(tx.payload) + EncodeHints(tx.hints))
    requires o2 == o1 + |EncodeOptCellRef(tx.payload)|
    requires o3 == o2 + |EncodeHints(tx.hints)|
    ensures ParseOptionalCellRef(Buffer(d, o1), PayloadParsingError, StateInitParsingError) ==
              if o2 <= |d| then Next(tx.payload, Buffer(d, o2))
              else if o1 == |d| then Stop(PayloadParsingError)
              else Stop(StateInitParsingError)
    ensures o2 <= |d| ==> (ParseHints(Buffer(d, o2), tx.payload.Some?) ==
              if o3 <= |d| then Next(tx.hints, Buffer(d, o3)) else Stop(HintsParsingError))
  {
    OptCellRefOn(tx.payload, d, o1, EncodeHints(tx.hints), PayloadParsingError, StateInitParsingError);
    if o2 <= |d| {
      HintsAfterPayload(tx, d, o1, o2, o3);
    }
  }

  /** The hints read where the payload reference ends. */
  lemma HintsAfterPayload(tx: Transaction, d: seq<Byte>, o1: nat, o2: nat, o3: nat)
    requires tx.hints.Some? ==> && tx.payload.Some?
                                && tx.hints.value.hintsType < Pow2(32) && |tx.hints.value.data| < Pow2(16)
    requires Buffer(d, o1).Valid() && Agrees(d, o1, EncodeOptCellRef(tx.payload) + EncodeHints(tx.hints))
    requires o2 == o1 + |EncodeOptCellRef(tx.payload)| && o2 <= |d|
    requires o3 == o2 + |EncodeHints(tx.hints)|
    ensures ParseHints(Buffer(d, o2), tx.payload.Some?) ==
              if o3 <= |d| then Next(tx.hints, Buffer(d, o3)) else Stop(HintsParsingError)
  {
    Skip(d, o1, EncodeOptCellRef(tx.payload), EncodeHints(tx.hints));
    HintsOn(tx.hints, tx.payload.Some?, d, o2, o3);
  }

  /** An input that ends inside the optional parts. */
  lemma OptionalsShort(tx: Transaction, d: seq<Byte>, o: nat, o1: nat, o2: nat, o3: nat)
    requires Buffer(d, o).Valid() && o <= o1 <= o2 <= o3 && |d| < o3
    requires ParseOptionalCellRef(Buffer(d, o), StateInitParsingError, StateInitParsingError) ==
               if o1 <= |d| then Next(tx.stateInit, Buffer(d, o1)) else Stop(StateInitParsingError)
    requires o1 <= |d| ==> (ParseOptionalCellRef(Buffer(d, o1), PayloadParsingError, StateInitParsingError) ==
               if o2 <= |d| then Next(tx.payload, Buffer(d, o2))
               else if o1 == |d| then Stop(PayloadParsingError)
               else Stop(StateInitParsingError))
    requires o2 <= |d| ==> ParseHints(Buffer(d, o2), tx.payload.Some?) == Stop(HintsParsingError)
    ensures ParseOptionals(Buffer(d, o)) ==
              if |d| < o1 then Stop(StateInitParsingError)
              else if |d| == o1 then Stop(PayloadParsingError)
              else if |d| < o2 then Stop(StateInitParsingError)
              else Stop(HintsParsingError)
  {
  }

  lemma OptionalsFound(tx: Transaction, d: seq<Byte>, o: nat, o1: nat, o2: nat, o3: nat)
    requires Buffer(d, o).Valid() && o <= o1 <= o2 <= o3 <= |d|
    requires ParseOptionalCellRef(Buffer(d, o), StateInitParsingError, StateInitParsingError) ==
               Next(tx.stateInit, Buffer(d, o1))
    requires ParseOptionalCellRef(Buffer(d, o1), PayloadParsingError, StateInitParsingError) ==
               Next(tx.payload, Buffer(d, o2))
    requires ParseHints(Buffer(d, o2), tx.payload.Some?) == Next(tx.hints, Buffer(d, o3))
    ensures ParseOptionals(Buffer(d, o)) == Next(OptionalsOf(tx), Buffer(d, o3))
  {
  }

  /**
    The deserializer against the encoder, for every input that agrees with
    the encoding of a well-formed transaction as far as both go. Once every
    field is in, a rejection by the hints processor comes before the check
    for bytes left over.
   */
  lemma DeserializeEncoding(lim: Limits, processHints: HintsProcessor, tx: Transaction, d: seq<Byte>)
    requires WellFormed(lim, tx) && |d| < SIZE_MODULUS
    requires Compatible(d, EncodeTx(tx))
    ensures var e, verdict := EncodeTx(tx), processHints(tx.(isBlind := false));
            Deserialize(lim, processHints, Buffer(d, 0)) ==
              if |d| > lim.maxTxLen then Err(WrongLengthError)
              else if |d| < |e| then Err(CutCode(tx, |d|))
              else if verdict.None? then Err(HintsParsingError)
              else if |d| > |e| then Err(WrongLengthError)
              else Ok(tx.(isBlind := verdict.value))
  {
    if |d| <= lim.maxTxLen {
      FieldsOn(lim, tx, d);
    }
  }

  /** The field parse on an input that agrees with the encoding. */
  lemma FieldsOn(lim: Limits, tx: Transaction, d: seq<Byte>)
    requires WellFormed(lim, tx) && |d| < SIZE_MODULUS
    requires Compatible(d, EncodeTx(tx))
    ensures var n := |EncodeTx(tx)|;
            ParseFields(lim, Buffer(d, 0)) ==
              if n <= |d| then Next(tx.(isBlind := false), Buffer(d, n)) else Stop(CutCode(tx, |d|))
  {
    EncodingStages(lim, tx, d);
    FieldsFrom(lim, tx, d);
  }

  /** Both stages of `ParseFields` on an input that agrees with the encoding. */
  lemma EncodingStages(lim: Limits, tx: Transaction, d: seq<Byte>)
    requires WellFormed(lim, tx) && |d| < SIZE_MODULUS
    requires Compatible(d, EncodeTx(tx))
    ensures var h := |EncodeHeader(tx)|;
            ParseHeader(lim, Buffer(d, 0)) ==
              if h <= |d| then Next(HeaderOf(tx), Buffer(d, h)) else Stop(CutCode(tx, |d|))
    ensures var h, m := |EncodeHeader(tx)|, |EncodeOptionals(tx)|;
            h <= |d| ==> (ParseOptionals(Buffer(d, h)) ==
              if h + m <= |d| then Next(OptionalsOf(tx), Buffer(d, h + m)) else Stop(CutCode(tx, |d|)))
  {
    EncodingOptionals(lim, tx, d);
    EncodingHeader(lim, tx, d);
  }

  /** The header stage of `ParseFields` on an input that agrees with the encoding. */
  lemma EncodingHeader(lim: Limits, tx: Transaction, d: seq<Byte>)
    requires WellFormed(lim, tx) && |d| < SIZE_MODULUS
    requires Compatible(d, EncodeTx(tx))
    ensures var h := |EncodeHeader(tx)|;
            ParseHeader(lim, Buffer(d, 0)) ==
              if h <= |d| then Next(HeaderOf(tx), Buffer(d, h)) else Stop(CutCode(tx, |d|))
  {
    FromStart(d, EncodeTx(tx));
    assert EncodeTx(tx) == EncodeHeader(tx) + EncodeOptionals(tx);
    HeaderStage(lim, tx, d);
  }

  /** The stage after the header, on an input that agrees with the encoding and holds the header. */
  lemma EncodingOptionals(lim: Limits, tx: Transaction, d: seq<Byte>)
    requires WellFormed(lim, tx) && |d| < SIZE_MODULUS
    requires Compatible(d, EncodeTx(tx))
    ensures var h, m := |EncodeHeader(tx)|, |EncodeOptionals(tx)|;
            h <= |d| ==> (ParseOptionals(Buffer(d, h)) ==
              if h + m <= |d| then Next(OptionalsOf(tx), Buffer(d, h + m)) else Stop(CutCode(tx, |d|)))
  {
    if |EncodeHeader(tx)| <= |d| {
      FromStart(d, EncodeTx(tx));
      assert EncodeTx(tx) == EncodeHeader(tx) + EncodeOptionals(tx);
      Skip(d, 0, EncodeHeader(tx), EncodeOptionals(tx));
      OptionalsStage(tx, d, |EncodeHeader(tx)|);
      CutAfterHeader(tx, |d|);
    }
  }

  lemma HeaderStage(lim: Limits, tx: Transaction, d: seq<Byte>)
    requires WellFormed(lim, tx) && |d| < SIZE_MODULUS
    requires Agrees(d, 0, EncodeHeader(tx) + EncodeOptionals(tx))
    ensures var h := |EncodeHeader(tx)|;
            ParseHeader(lim, Buffer(d, 0)) ==
              if h <= |d| then Next(HeaderOf(tx), Buffer(d, h)) else Stop(CutCode(tx, |d|))
  {
    HeaderOn(lim, tx, d, 0, EncodeOptionals(tx));
    assert |d| - 0 == |d|;
  }

  /** `OptionalsOn` at the offset where the header ends, as `EncodingOptionals` needs it. */
  lemma OptionalsStage(tx: Transaction, d: seq<Byte>, h: nat)
    requires OptionalsFit(OptionalsOf(tx)) && |d| < SIZE_MODULUS && h <= |d|
    requires Agrees(d, h, EncodeOptionals(tx))
    ensures var m := |EncodeOptionals(tx)|;
            ParseOptionals(Buffer(d, h)) ==
              if h + m <= |d| then Next(OptionalsOf(tx), Buffer(d, h + m)) else Stop(OptionalsCut(tx, |d| - h))
  {
    OptionalsOn(tx, d, h);
  }

  /** Past the header, the code of a cut is the optional part's. */
  lemma CutAfterHeader(tx: Transaction, n: nat)
    requires |tx.value| < 256 && |EncodeHeader(tx)| <= n
    ensures CutCode(tx, n) == OptionalsCut(tx, n - |EncodeHeader(tx)|)
  {
  }

  lemma FromStart(d: seq<Byte>, p: seq<Byte>)
    requires Compatible(d, p)
    ensures Agrees(d, 0, p)
  {
    assert d[0..] == d;
    AgreesIsCompatible(d, 0, p);
  }

  /**
    `ParseFields` from what its two stages return: the header on the first
    bytes, then the optional parts on the bytes after them.
   */
  lemma FieldsFrom(lim: Limits, tx: Transaction, d: seq<Byte>)
    requires |tx.value| < 256 && |d| < SIZE_MODULUS
    requires var h := |EncodeHeader(tx)|;
             ParseHeader(lim, Buffer(d, 0)) ==
               if h <= |d| then Next(HeaderOf(tx), Buffer(d, h)) else Stop(CutCode(tx, |d|))
    requires var h, m := |EncodeHeader(tx)|, |EncodeOptionals(tx)|;
             h <= |d| ==> (ParseOptionals(Buffer(d, h)) ==
               if h + m <= |d| then Next(OptionalsOf(tx), Buffer(d, h + m)) else Stop(CutCode(tx, |d|)))
    ensures var n := |EncodeTx(tx)|;
            ParseFields(lim, Buffer(d, 0)) ==
              if n <= |d| then Next(tx.(isBlind := false), Buffer(d, n)) else Stop(CutCode(tx, |d|))
  {
    AssembleOf(tx);
  }

  lemma AssembleOf(tx: Transaction)
    ensures Assemble(HeaderOf(tx), OptionalsOf(tx), false) == tx.(isBlind := false)
  {
  }

  // The converse: a parse that succeeds has consumed exactly the encoding of
  // what it returns, so only an encoding is accepted.

  /**
    Only the exact encoding of a transaction deserializes: a successful parse
    means the buffer held nothing but the encoding of the returned fields.
   */
  lemma DeserializeOnlyEncodings(lim: Limits, processHints: HintsProcessor, d: seq<Byte>)
    requires |d| < SIZE_MODULUS
    ensures var r := Deserialize(lim, processHints, Buffer(d, 0));
            r.Ok? ==> d == EncodeTx(r.value.(isBlind := false))
  {
    var b := Buffer(d, 0);
    if Deserialize(lim, processHints, b).Ok? {
      DeserializeOkFields(lim, processHints, b);
      FieldsConsumed(lim, b);
      assert d[0..|d|] == d;
    }
  }

  /** A successful parse is the field parse of the whole buffer, up to the blind flag. */
  lemma DeserializeOkFields(lim: Limits, processHints: HintsProcessor, b: Buffer)
    requires b.Valid() && Deserialize(lim, processHints, b).Ok?
    ensures var p := ParseFields(lim, b);
            && p.Next? && p.rest.data == b.data && p.rest.offset == |b.data|
            && p.value == Deserialize(lim, processHints, b).value.(isBlind := false)
  {
    var p := ParseFields(lim, b);
    assert p.value.(isBlind := false) == p.value;
  }

  lemma FieldsConsumed(lim: Limits, b: Buffer)
    requires b.Valid() && ParseFields(lim, b).Next?
    ensures var p := ParseFields(lim, b); Consumed(b, p.rest, EncodeTx(p.value))
  {
    var h := ParseHeader(lim, b);
    var o := ParseOptionals(h.rest);
    var tx := Assemble(h.value, o.value, false);
    assert ParseFields(lim, b) == Next(tx, o.rest);
    HeaderConsumed(lim, b, tx, h.rest);
    OptionalsConsumed(h.rest, tx, o.rest);
    ConsumedChain(b, h.rest, o.rest, EncodeHeader(tx), EncodeOptionals(tx));
  }

  lemma HeaderConsumed(lim: Limits, b: Buffer, tx: Transaction, rest: Buffer)
    requires b.Valid() && ParseHeader(lim, b) == Next(HeaderOf(tx), rest)
    ensures |tx.value| < 256 && Consumed(b, rest, EncodeHeader(tx))
  {
    HeaderSteps(lim, b, tx, rest);
    HeaderFromSteps(lim, b, tx, rest);
  }

  /** What `HeaderSteps` states is enough for the header's encoding to be consumed. */
  lemma HeaderFromSteps(lim: Limits, b: Buffer, tx: Transaction, rest: Buffer)
    requires b.Valid() && b.offset < |b.data| && b.data[b.offset] == tx.tag
    requires var b1 := Buffer(b.data, b.offset + 1);
             var r2 := ReadU32(b1, BE);
             var r3 := ReadU32(r2.rest, BE);
             && r2 == Done(tx.seqno, r2.rest) && r3 == Done(tx.timeout, r3.rest)
             && ParseTransfer(lim, r3.rest) == Next(TransferOf(tx), rest)
    ensures |tx.value| < 256 && Consumed(b, rest, EncodeHeader(tx))
  {
    var b1 := Buffer(b.data, b.offset + 1);
    var r2 := ReadU32(b1, BE);
    var r3 := ReadU32(r2.rest, BE);
    BeFixedConsumed(b1, 4);
    BeFixedConsumed(r2.rest, 4);
    TransferConsumed(lim, r3.rest, tx, rest);
    HeaderChain(tx, b, b1, r2.rest, r3.rest, rest);
  }

  /** The reads `ParseHeader` made to return the header of `tx`. */
  lemma HeaderSteps(lim: Limits, b: Buffer, tx: Transaction, rest: Buffer)
    requires b.Valid() && ParseHeader(lim, b) == Next(HeaderOf(tx), rest)
    ensures var b1 := Buffer(b.data, b.offset + 1);
            var r2 := ReadU32(b1, BE);
            var r3 := ReadU32(r2.rest, BE);
            && b.offset < |b.data| && b.data[b.offset] == tx.tag
            && r2 == Done(tx.seqno, r2.rest) && r3 == Done(tx.timeout, r3.rest)
            && ParseTransfer(lim, r3.rest) == Next(TransferOf(tx), rest)
  {
    var b1 := Buffer(b.data, b.offset + 1);
    assert ParseTag(b) == Next(0, b1);
  }

  /** The four header parts, consumed one after the other, make the header's encoding. */
  lemma HeaderChain(tx: Transaction, b: Buffer, b1: Buffer, b2: Buffer, b3: Buffer, rest: Buffer)
    requires |tx.value| < 256
    requires Consumed(b, b1, [tx.tag]) && Consumed(b1, b2, BeBytes(tx.seqno, 4))
    requires Consumed(b2, b3, BeBytes(tx.timeout, 4)) && Consumed(b3, rest, EncodeTransfer(tx))
    ensures Consumed(b, rest, EncodeHeader(tx))
  {
    ConsumedChain(b2, b3, rest, BeBytes(tx.timeout, 4), EncodeTransfer(tx));
    ConsumedChain(b1, b2, rest, BeBytes(tx.seqno, 4), BeBytes(tx.timeout, 4) + EncodeTransfer(tx));
    ConsumedChain(b, b1, rest, [tx.tag], BeBytes(tx.seqno, 4) + (BeBytes(tx.timeout, 4) + EncodeTransfer(tx)));
  }

  lemma TransferConsumed(lim: Limits, b: Buffer, tx: Transaction, rest: Buffer)
    requires b.Valid() && ParseTransfer(lim, b) == Next(TransferOf(tx), rest)
    ensures |tx.value| < 256 && Consumed(b, rest, EncodeTransfer(tx))
  {
    var r1 := ReadVarUint(b, lim.maxValueBytesLen);
    var r2 := ReadAddress(r1.rest);
    var r3 := ReadU8(r2.rest);
    var r4 := ReadU8(r3.rest);
    assert r1.Done? && r2.Done? && r3.Done? && r4.Done?;
    assert r1.value == tx.value && r2.value == tx.to && r4.rest == rest;
    VarUintConsumed(b, lim.maxValueBytesLen);
    AddressConsumed(r1.rest);
    U8Consumed(r2.rest);
    U8Consumed(r3.rest);
    ConsumedChain(r2.rest, r3.rest, rest, [tx.bounce], [tx.sendMode]);
    ConsumedChain(r1.rest, r2.rest, rest, EncodeAddress(tx.to), [tx.bounce] + [tx.sendMode]);
    ConsumedChain(b, r1.rest, rest, EncodeVarUint(tx.value), EncodeAddress(tx.to) + ([tx.bounce] + [tx.sendMode]));
  }

  lemma OptionalsConsumed(b: Buffer, tx: Transaction, rest: Buffer)
    requires b.Valid() && ParseOptionals(b) == Next(OptionalsOf(tx), rest)
    ensures Consumed(b, rest, EncodeOptionals(tx))
  {
    var s := ParseOptionalCellRef(b, StateInitParsingError, StateInitParsingError);
    var p := ParseOptionalCellRef(s.rest, PayloadParsingError, StateInitParsingError);
    var h := ParseHints(p.rest, p.value.Some?);
    assert s.Next? && p.Next? && h.Next?;
    assert s.value == tx.stateInit && p.value == tx.payload && h.value == tx.hints && h.rest == rest;
    OptCellRefConsumed(b, StateInitParsingError, StateInitParsingError);
    OptCellRefConsumed(s.rest, PayloadParsingError, StateInitParsingError);
    HintsConsumed(p.rest, p.value.Some?);
    ConsumedChain(s.rest, p.rest, rest, EncodeOptCellRef(tx.payload), EncodeHints(tx.hints));
    ConsumedChain(b, s.rest, rest, EncodeOptCellRef(tx.stateInit),
                  EncodeOptCellRef(tx.payload) + EncodeHints(tx.hints));
  }

  lemma OptCellRefConsumed(b: Buffer, flagCode: ParserStatus, refCode: ParserStatus)
    requires b.Valid() && ParseOptionalCellRef(b, flagCode, refCode).Next?
    ensures var p := ParseOptionalCellRef(b, flagCode, refCode);
            Consumed(b, p.rest, EncodeOptCellRef(p.value))
  {
    var f := ReadBool(b);
    BoolConsumed(b);
    if f.value {
      CellRefConsumed(f.rest);
      ConsumedChain(b, f.rest, ReadCellRef(f.rest).rest, [1], EncodeCellRef(ReadCellRef(f.rest).value));
    }
  }

  lemma HintsConsumed(b: Buffer, hasPayload: bool)
    requires b.Valid() && ParseHints(b, hasPayload).Next?
    ensures var p := ParseHints(b, hasPayload); Consumed(b, p.rest, EncodeHints(p.value))
  {
    var f := ReadBool(b);
    BoolConsumed(b);
    if f.value {
      var h := ParseHintsFields(f.rest);
      HintsFieldsConsumed(f.rest);
      ConsumedChain(b, f.rest, h.rest, [1],
                    BeBytes(h.value.hintsType, 4) + (BeBytes(|h.value.data|, 2) + h.value.data));
    }
  }

  lemma HintsFieldsConsumed(b: Buffer)
    requires b.Valid() && ParseHintsFields(b).Next?
    ensures var p := ParseHintsFields(b);
            Consumed(b, p.rest, BeBytes(p.value.hintsType, 4) + (BeBytes(|p.value.data|, 2) + p.value.data))
  {
    var r1 := ReadU32(b, BE);
    var r2 := ReadU16(r1.rest, BE);
    var r3 := ReadRef(r2.rest, r2.value);
    assert r1.Done? && r2.Done? && r3.Done?;
    var data := b.data[r3.value.start..r3.value.start + r3.value.length];
    assert ParseHintsFields(b) == Next(Hints(r1.value, data), r3.rest);
    BeFixedConsumed(b, 4);
    BeFixedConsumed(r1.rest, 2);
    RefConsumed(r2.rest, r2.value);
    ConsumedChain(r1.rest, r2.rest, r3.rest, BeBytes(|data|, 2), data);
    ConsumedChain(b, r1.rest, r3.rest, BeBytes(r1.value, 4), BeBytes(|data|, 2) + data);
  }
}

=== FILE: wrappers.dfy ===
/** Option and Result, the failure-carrying results used throughout the model. */
module Wrappers {

  datatype Option<+T> = None | Some(value: T)

  datatype Result<+T, +E> = Ok(value: T) | Err(error: E)
}
